=== FILE: README.md ===
# Camera discovery and capture, modelled in Dafny

This project models the decision logic of a small Python camera library.
`IPC.py` finds ONVIF network cameras and captures from one. `USBC.py`
lists local V4L2 cameras, enumerates their formats, and captures from one.
Around that logic the library talks to hardware and libraries:
WS-Discovery, ONVIF/zeep, sockets, `subprocess`, `fcntl.ioctl`, OpenCV and
threads. In the model those become inputs. Examples: the list of discovered
services, the output of `hostname -I`, the ONVIF option lists, and a table
of ioctl answers per index.

Modules:

- `Wrappers`: `Option`, `Result` and `Outcome` (an error-only result).
- `PyStr`: the Python string builtins the code relies on. These are
  `str.find`, `str.split(sep)`, `str.split()`, `str.replace`, string
  ordering with `list.sort` and `str(int)`; also `str.partition`, with
  which a locator is read back.
- `FrameQueues`: `queue.Queue` run sequentially, and the publish step of
  both capture loops.
- `Discovery`: the ONVIF address filter of `IPCamera.get_camera_list`, as
  functions over the discovered services and the local scope tokens.
- `Encoder`: how an options entry is chosen, and the field-by-field
  encoder policy of `IPCamera.capture_frames`.
- `Locator`: the RTSP stream locator with embedded credentials.
- `PrintDict`: `print_dict`, returning its lines instead of printing them.
- `IPC`: the `IPCamera` class, whose methods update `lst`, the encoder
  configuration object and the frame queue in place.
- `USBC`: `USBCamera.get_camera_list`, the enumeration loops of
  `get_camera_info`, and the `CameraProcessor` class.

Behaviour of the code that a reader may not expect. The model keeps all of
it except the two items marked "(not modelled)":

- Discovered addresses are not de-duplicated. A service is appended once
  for each local scope token that matches it, and the list is then sorted.
- The frame buffer is `Queue()`, which is unbounded, although the capture
  loops are written to drop the oldest frame when it is full. `put_nowait`
  never raises `queue.Full`, so the drop-oldest branch never runs. `get`
  returns the oldest unread frame. The queue model keeps a `maxsize`
  parameter, so the eviction behaviour of a bounded queue is proved as well.
- (not modelled) Nothing guards `IPCamera.start_capture` (IPC.py:125-127):
  calling it while a capture runs starts a second capture thread.
  `CameraProcessor` instead builds its one thread in `__init__`, and
  `Thread.start` refuses a second call with `RuntimeError` (USBC.py:111-114).
- When at least one ONVIF service answers, a local scope token without a
  '.' (an IPv6 address, say) raises `IndexError` from discovery, which
  aborts the whole of it; the camera is then not built.
- The address appended by discovery is cut after 13 characters
  (IPC.py:42). A 14- or 15-character IPv4 address loses its tail, so
  "192.168.100.100" becomes "192.168.100.1". An XAddrs entry with a port
  keeps the ':', so "192.168.1.64:80" becomes "192.168.1.64:".
- (not modelled) `start_capture` defaults to a height of 960, but
  `capture_frames` has its own default of 720 (IPC.py:125, IPC.py:133).

## Model

| member | source | states |
|---|---|---|
| PyStr.Find | IPC.py:40-41 | `str.find` never returns less than -1; it returns -1 exactly when the substring occurs nowhere; otherwise it returns an index where it occurs, with no occurrence before it |
| PyStr.Split | IPC.py:40 | `str.split(sep)` returns at least one part; it returns exactly one part iff the separator is absent; no part contains the separator |
| PyStr.SplitHead | IPC.py:43 | the first part of a split is the prefix before the first separator (or the whole string) |
| PyStr.SplitJoin | IPC.py:43 | joining the parts of a split with the separator gives back the original string |
| PyStr.Fields | IPC.py:39 | every word of `str.split()` is non-empty and holds no Python whitespace |
| PyStr.FieldsSkipSpace | IPC.py:39 | a whitespace run of any length in front of the text adds no field |
| PyStr.FieldsWordThenSpace | IPC.py:39 | a word followed by a whitespace run of any length and kind (such as the " \n" that ends `hostname -I` output) is exactly one field, and the fields of the rest follow it |
| PyStr.FieldsJoinSpaced | IPC.py:39 | `str.split()` of non-empty, space-free words joined by single spaces gives back those words |
| PyStr.ReplaceAbsent | IPC.py:97 | `replace` leaves a string unchanged when the pattern does not occur in it |
| PyStr.ReplaceAll | IPC.py:97 | definition of `s.replace(pat, rep)`: one left-to-right scan that replaces non-overlapping occurrences. `PyStr.ReplaceAtFront` shows that an occurrence is replaced, and the lemmas below show what is left alone |
| PyStr.ReplaceAtFront | IPC.py:97 | an occurrence of the pattern at the front is replaced by the replacement text, and the scan goes on after it |
| PyStr.ReplaceConcat | IPC.py:97 | replacing in `a + b` is replacing in `a` followed by replacing in `b`, whenever no occurrence of the pattern straddles the seam |
| PyStr.Partition | IPC.py:171-172 | `str.partition(c)` as used by the model's own reader of the locator built there (the source never calls it): None, standing for Python's `(s, '', '')`, iff `c` is absent; otherwise the text before the first `c`, which holds no `c`, and the rest, joined by `c`, give back the string |
| PyStr.SortStrings | IPC.py:46 | `list.sort` on strings returns a list that is sorted by code-point order and is a permutation of its input |
| PyStr.IntString | USBC.py:121-122 | `str(int)` is non-empty, starts with '-' iff the number is negative, holds only digits after that sign, and has no leading zero: it starts with '0' only when it is "0", and a negative number's digits do not start with '0' |
| PyStr.IntStringRoundTrip | USBC.py:121-122 | parsing the decimal text of any integer gives back that integer |
| FrameQueues.AfterPublish | IPC.py:198-202 | definition of one publish step on the queue contents: on Full the oldest item is dropped, then the frame is appended |
| FrameQueues.AfterPublishing | IPC.py:197-202 | definition of publishing frames one after another; its properties are the lemmas below |
| FrameQueues.FrameQueue.constructor | IPC.py:21 | `Queue(maxsize)` starts empty; the source passes no argument, so maxsize is 0 (unbounded) |
| FrameQueues.FrameQueue.PutNowait | IPC.py:199 | `put_nowait` raises Full and changes nothing iff the queue is bounded and at capacity; otherwise it appends |
| FrameQueues.FrameQueue.GetNowait | IPC.py:201 | `get_nowait` raises Empty on an empty queue; otherwise it removes and returns the oldest item |
| FrameQueues.FrameQueue.Get | IPC.py:205 | `get` removes and returns the oldest item |
| FrameQueues.FrameQueue.Publish | IPC.py:198-202 | a publish step (put, or on Full get then put) keeps the capacity bound; it evicts exactly the oldest item when the queue was full, and otherwise only appends |
| FrameQueues.UnboundedPublishingAppends | IPC.py:198-202 | with maxsize 0, publishing any frames appends all of them in order; the eviction branch is never taken |
| FrameQueues.BoundedPublishingKeepsNewest | USBC.py:137-141 | with a positive maxsize, the queue afterwards holds exactly the newest maxsize items of everything held and published |
| FrameQueues.SingleSlotHoldsLatest | USBC.py:137-141 | with maxsize 1, only the latest published frame remains |
| FrameQueues.UnboundedQueueDeliversInOrder | IPC.py:21 | on the source's `Queue()`, two frames published before any read are both delivered, oldest first |
| FrameQueues.SingleSlotQueueKeepsNewest | IPC.py:197-202 | with maxsize 1, the second publish drops the first frame and a read returns the second |
| Discovery.ScopePrefix | IPC.py:40 | building the two-octet prefix fails (IndexError) iff the token has no '.'; otherwise the prefix starts the token, holds exactly one '.', and is followed in the token by '.' or by the end: it is the text up to the second '.' |
| Discovery.AddressAt | IPC.py:42-43 | the appended text has at most 13 characters, contains no '/', and is the slice of XAddrs at the match position up to the first '/' or 13 characters |
| Discovery.CutAtThirteen | IPC.py:42-43 | with no '/' in the 13 characters at the match, the address is exactly those 13 characters |
| Discovery.LongAddressIsCut | IPC.py:42-43 | "192.168.100.100" in XAddrs is appended as "192.168.100.1", whatever surrounds it |
| Discovery.PortLeavesColon | IPC.py:42-43 | "192.168.1.64:80" in XAddrs is appended as "192.168.1.64:", keeping the port's ':' |
| Discovery.ProbeScope | IPC.py:40-44 | definition of one pass of the inner loop body: raise, skip, or append an address |
| Discovery.ScanScopes | IPC.py:39-44 | definition of the inner loop over the scope tokens for one service, which stops at the first IndexError |
| Discovery.ScanServices | IPC.py:36-44 | definition of both loops, services outermost; its properties are the lemmas below |
| Discovery.FindPositive | IPC.py:41 | `find(...) > 0` holds iff the text occurs somewhere but not at index 0 |
| Discovery.ProbeAppendsWhen | IPC.py:40-44 | a service/token pair appends iff the token has a '.', the two-octet prefix occurs in XAddrs but not at 0, and "onvif" occurs in Types but not at 0 |
| Discovery.CrashIff | IPC.py:36-44 | the nested loops raise IndexError iff there is at least one service and some scope token has no '.' |
| Discovery.FoundExactly | IPC.py:36-44 | every appended address comes from a matching service/token pair; without a crash, every matching pair's address is in the list |
| Discovery.FoundInOrder | IPC.py:36-44 | without a crash, the list is exactly every service's appends in turn, tokens in order within a service: one entry per matching service/token pair, in loop order, so an address matched by several pairs appears once per pair |
| Discovery.FoundShape | IPC.py:42-44 | every address in the list has at most 13 characters and no '/' |
| Discovery.AppendedOncePerMatchingToken | IPC.py:39-44 | one service matched by two tokens with the same prefix is appended twice; there is no de-duplication |
| Encoder.EncoderConfiguration.constructor | IPC.py:141 | the configuration object holds the settings it is given |
| Encoder.LastEntryFor | IPC.py:134-137 | definition of the options lookup, where a later matching entry overrides an earlier one |
| Encoder.ApplyOption | IPC.py:145-158 | definition of the policy for one advertised option |
| Encoder.ApplyOptions | IPC.py:144-158 | definition of the policy for the advertised options in list order; its properties are the lemmas below |
| Encoder.LastEntryForIsLastMatch | IPC.py:134-137 | the lookup finds nothing iff no entry has the ip; otherwise it returns the options of a matching entry that no later entry matches |
| Encoder.FindEncoderOptions | IPC.py:134-137 | the lookup loop returns exactly that last-match function |
| Encoder.ApplyEncoderOptions | IPC.py:144-158 | the nested loops leave the configuration equal to applying each advertised option to it in list order |
| Encoder.ApplyEncoderOption | IPC.py:145-158 | one option of the requested encoding sets the encoding. The resolution changes only on an exact listed match, quality and bitrate only inside the inclusive range, and the frame rate only on a listed rate; a different encoding changes nothing |
| Encoder.ApplyOptionsFieldwise | IPC.py:144-158 | each field ends at the requested value iff some option of the requested encoding accepts it; otherwise it keeps its previous value |
| Encoder.UnmatchedEncodingChangesNothing | IPC.py:145 | when no option has the requested encoding, the whole configuration is unchanged |
| Encoder.AppliedValuesAreAdvertised | IPC.py:147-158 | every field is either unchanged or holds a value advertised by an option of the requested encoding |
| Encoder.OutOfRangeQualityIsIgnored | IPC.py:152-153 | a quality outside the advertised range is silently dropped while resolution, frame rate and bitrate are applied |
| Locator.StreamLocator | IPC.py:171-172 | definition of the locator (built the same way at IPC.py:96-98): "rtsp://user:password@" followed by the device URI with every "rtsp://" removed; its properties are the lemmas below |
| Locator.LocatorRoundTrip | IPC.py:171-172 | a reader that splits the userinfo at the first ':' and the next '@' recovers user name, password and the URI with "rtsp://" removed, provided the user name has no ':' and the password no '@' |
| Locator.PasswordWithAtIsMisread | IPC.py:172 | the credentials are not percent-encoded, so a reader that ends the password at the first '@' (as `ParseLocator` does) reads a password containing '@' back wrongly |
| Locator.AtInPasswordIsAmbiguous | IPC.py:172 | whatever the reader: a password `a@b` with device URI "rtsp://" + h gives the same locator as the different password `a` with device URI "rtsp://" + `b@h`, so the locator does not determine the credentials |
| Locator.DeviceUriGainsCredentials | IPC.py:96-98 | for "rtsp://" + host and path with no further "rtsp://", the locator is "rtsp://user:password@" + host and path |
| Locator.RemovalCanFormScheme | IPC.py:97 | `replace` is a single pass: removing "rtsp://" from "rtsrtsp://p://" yields "rtsp://" |
| PrintDict.Render | IPC.py:215-221 | definition of the printed lines: a nested dictionary prints "key:" and then its own lines four spaces deeper; any other value prints "key: value" |
| PrintDict.Spaces | IPC.py:218 | `' ' * n` consists of exactly n spaces |
| PrintDict.RenderFollowsOutline | IPC.py:215-221 | one line per key at every depth, in pre-order; each line starts with its key indented four spaces per level, never less than the starting indent |
| PrintDict.FlatDictionary | IPC.py:215-221 | a dictionary without nested dictionaries prints one "key: value" line per entry, in order |
| IPC.IPCamera.constructor | IPC.py:15-22 | the camera stores the credentials and the port; it starts with an empty address list, an empty unbounded frame queue and no options |
| IPC.IPCamera.Create | IPC.py:15-23 | with the ONVIF calls and the socket probe assumed to answer, construction fails iff discovery raises; otherwise the address list is sorted and a permutation of the appended addresses, and there is one options entry per address, in order |
| IPC.IPCamera.GetCameraList | IPC.py:25-46 | after a crash, `lst` holds the appends made so far, unsorted; otherwise `lst` is sorted and a permutation of the old list plus every appended address; every entry stays at most 13 characters without '/' |
| IPC.IPCamera.ProbeToken | IPC.py:40-44 | the loop body for one service and token raises exactly when the probe is a crash, and appends exactly the probe's address when there is one |
| IPC.IPCamera.ProbeScopes | IPC.py:39-44 | the inner loop for one service continues the scan: it stops at the first dotless token and appends exactly what the filter appends |
| IPC.IPCamera.GetOptions | IPC.py:108-123 | one entry per discovered address, in list order, holding what the option query returns for that address |
| IPC.IPCamera.CaptureFrames | IPC.py:133-202 | with no options entry for the ip, it fails (TypeError) and changes nothing. Otherwise the configuration gets the policy applied, the locator carries the credentials, and every frame is appended to the queue in order |
| IPC.IPCamera.GetFrame | IPC.py:204-205 | returns and removes the oldest unread frame |
| USBC.ListCameras | USBC.py:15-37 | definition of the listing: the openable paths in glob order, each named by its card, failing at the first path whose capability query fails |
| USBC.Openable | USBC.py:20-24 | a path is kept iff it is in the glob result and OpenCV opens it |
| USBC.OpenableConcat | USBC.py:20-24 | the filter keeps the glob order: `Openable(a + b) == Openable(a) + Openable(b)` |
| USBC.ListCamerasIsOpenable | USBC.py:15-37 | the listing fails iff some openable path cannot be queried; otherwise it has one entry per openable path, in glob order, named by the card it reports |
| USBC.GetCameraList | USBC.py:15-37 | the loop computes the listing, and its counter `index` equals the number of listed cameras |
| USBC.EnumFrom | USBC.py:53-59 | definition of an enumeration by index: the answers from the start index up to the first failing index |
| USBC.EnumFromQueries | USBC.py:53-59 | each reported item answers its index, counting from the start, and the index after the last one fails |
| USBC.EnumFromUnique | USBC.py:53-59 | the run of answers up to the first failure is the only sequence with that property |
| USBC.Rates | USBC.py:85-87 | a (numerator, denominator) pair is listed iff some discrete interval has it; there are no more pairs than intervals |
| USBC.RatesConcat | USBC.py:85-87 | the rates keep the order of the intervals: `Rates(a + b) == Rates(a) + Rates(b)` |
| USBC.PassesAgree | USBC.py:53-96 | both format passes list the same formats in the same order, each answering its index, and the next index fails |
| USBC.WithoutResetNothingIsListed | USBC.py:62 | a second pass that did not reset `fmt.index` would list nothing; with the reset it lists one block per format |
| USBC.EnumerateIntervals | USBC.py:76-90 | the interval loop counts from 0 and stops at the first failure; it keeps the discrete intervals |
| USBC.EnumerateSizes | USBC.py:68-93 | the size loop counts from 0 and stops at the first failure. Only discrete sizes are shown, but intervals are enumerated for every size at the width and height the `discrete` member reads |
| USBC.EnumerateResolutions | USBC.py:62-96 | the second format pass from the given index: one block per format up to the first failure |
| USBC.EnumerateFormats | USBC.py:50-59 | the first pass lists the successful prefix, and `fmt.index` stops at its length, an index that fails |
| USBC.SizeReportOf | USBC.py:73-90 | one frame size: its width and height are shown iff it is discrete, and a rate is listed iff some discrete interval, enumerated at the width and height the `discrete` member reads, has it |
| USBC.SizesOf | USBC.py:68-93 | one report per frame-size index answered from 0, in order, up to the first index that fails |
| USBC.FormatReportOf | USBC.py:66-93 | one block of the second pass: the format's name, and its sizes up to the first failing size index |
| USBC.ResolutionsFrom | USBC.py:62-96 | the second pass from a start index: one block per format index answered, in order, up to the first index that fails |
| USBC.EncodingsOf | USBC.py:50-59 | the first pass: the name of every format index answered from 0, in order, up to the first index that fails |
| USBC.CameraInfoOf | USBC.py:39-96 | definition of the report: the device name, the encodings of the first pass and the blocks of the second pass |
| USBC.GetCameraInfo | USBC.py:39-96 | the printed report: the device name, the first pass, then the second pass after resetting the index to 0 |
| USBC.FmtVideoArgument | USBC.py:121-122 | definition of the `--set-fmt-video` argument "width=W,height=H,pixelformat=E" |
| USBC.FmtVideoRoundTrip | USBC.py:121-122 | the `--set-fmt-video` argument reads back as the width, height and pixel format it was built from |
| USBC.CameraProcessor.constructor | USBC.py:102-109 | stores path, encoding, fps, width and height unchanged (defaults MJPG, 30, 1280, 960) with a fresh empty unbounded queue |
| USBC.CameraProcessor.FormatCommand | USBC.py:121-122 | definition of the `v4l2-ctl` command for the stored settings |
| USBC.CameraProcessor.FormatCommandNamesSettings | USBC.py:121-122 | the command is "v4l2-ctl -d " + path + " --set-fmt-video=" followed by an argument that reads back as the stored width, height and encoding |
| USBC.CameraProcessor.CaptureFrames | USBC.py:119-141 | returns the command it runs, and every frame read is appended to the queue in order; the Full branch never runs |

## Left out

- IPC.IPCamera.Create: the ONVIF calls and the socket probe made while the
  camera is built are assumed to answer. `sock.connect_ex((ip, port))`
  (IPC.py:55) sits outside any `try`, and it raises `socket.gaierror` for
  an address it cannot resolve. The 13-character cut produces such
  addresses whenever XAddrs carries a port, since the ':' is kept
  (`Discovery.PortLeavesColon`). `ONVIFCamera(...)`, `update_xaddrs()` and
  `GetVideoEncoderConfigurationOptions()` in `get_options` (IPC.py:113-116),
  and `create_devicemgmt_service()` and `GetStreamUri` in `get_camera_list`
  (IPC.py:74, IPC.py:92), sit outside any `try`. When a camera does not
  answer they raise out of `__init__`, which the model does not capture.
- WS-Discovery and the ONVIF/zeep service calls. Their answers are inputs:
  the services, the option lists, the encoder configuration object and the
  stream URI.
- The socket probe `connect_ex` (IPC.py:53-55) is left out; no input stands
  for it.
- The device and profile dictionaries that `IPCamera.get_camera_list`
  builds (IPC.py:47-105), and the error texts it records. These only wrap
  ONVIF responses. The single `cam_profiles` dictionary is shared across
  devices.
- `get_encoder_options` (IPC.py:207-213) and the configuration dump in
  `capture_frames` (IPC.py:174-188). These only print ONVIF responses;
  the line layout of `print_dict` is modelled.
- The `hostname -I` call, `subprocess.call` of the `v4l2-ctl` command,
  `open` and `fcntl.ioctl`. Their results are inputs: the scope string, the
  capability answer per path, and a `Device` of answer tables.
- OpenCV: opening a capture, setting its properties, `read`, and the
  `putText` resolution overlay. The frames read are an input sequence.
  Frames are opaque, so the overlay is not modelled.
- A failed read (`frame` is None) crashes the capture loop at `frame.shape`.
  The capture loops run forever; the model covers the frames read so far.
- Threads: `start_capture`, `stop_capture`, the one-shot `Thread.start`, and
  producer/consumer interleaving. Queue operations are modelled one at a
  time.
- IPC.IPCamera.GetFrame: `Queue.get` blocks until a frame arrives, so the
  model requires a frame to be there.
- USBC.EnumerateIntervals: the frame rate `denominator / numerator` is a
  float division, so the rate is kept as the (numerator, denominator)
  pair. The division by zero a zero numerator would raise is not modelled.
- USBC.GetCameraInfo: the device file is assumed to open and
  `VIDIOC_QUERYCAP` to succeed; their failures would raise out of the call.
- Each ioctl table is finite. Every index past the table fails, so every
  enumeration ends.
- Console output other than the structure of what is printed.
- `PyStr.IsSpace` covers the Python whitespace code points. Decoding bytes
  to `str` is not modelled.

=== FILE: discovery.dfy ===
/** The ONVIF address filter of `IPCamera.get_camera_list` (IPC.py:36-46):
    which WS-Discovery responses become entries of `self.lst`, and when the
    filter raises. The loops themselves are `IPC.IPCamera.GetCameraList`;
    this module gives the specification they are proved against. */
module Discovery {
  import opened Wrappers
  import opened PyStr

  /** One WS-Discovery response, as the two strings the code makes of it:
      `str(service.getXAddrs())` and `str(service.getTypes())`. */
  datatype Service = Service(xaddrs: string, types: string)

  /** The exception the filter can raise. */
  datatype DiscoveryError = IndexError

  /** `ip_scope.split('.')[0] + '.' + ip_scope.split('.')[1]`, or None where
      indexing part 1 raises IndexError. The prefix is the text of the
      token up to its second '.' or its end: it starts the token, holds
      exactly one '.', and is followed in the token by '.' or nothing. */
  function ScopePrefix(token: string): (prefix: Option<string>)
    ensures prefix.None? <==> '.' !in token
    ensures prefix.Some? ==> var p := prefix.value;
      |p| <= |token| && token[..|p|] == p && (|p| == |token| || token[|p|] == '.')
      && '.' in p && forall i, j :: 0 <= i < j < |p| && p[i] == '.' ==> p[j] != '.'
  {
    var parts := Split(token, '.');
    if |parts| < 2 then None
    else
      SplitJoin(token, '.');
      JoinFirstTwo(parts, '.');
      OneSeparator(parts[0], '.', parts[1]);
      var p := parts[0] + "." + parts[1];
      assert token == p + (if |parts| == 2 then [] else ['.'] + Join(parts[2..], '.'));
      Some(p)
  }

  /** `a + [c] + b` holds exactly one `c` when neither `a` nor `b` does. */
  lemma OneSeparator(a: string, c: char, b: string)
    requires c !in a && c !in b
    ensures var p := a + [c] + b;
      c in p && forall i, j :: 0 <= i < j < |p| && p[i] == c ==> p[j] != c
  {
    var p := a + [c] + b;
    assert p[|a|] == c;
    forall i, j | 0 <= i < j < |p| && p[i] == c
      ensures p[j] != c
    {
      assert i == |a|;
      assert p[j] == b[j - |a| - 1];
    }
  }

  /** `get_ip[r:r + 13].split('/')[0]`: the text at `r`, cut after 13
      characters and at the first '/'. */
  function AddressAt(getIp: string, r: nat): (address: string)
    requires r <= |getIp|
    ensures |address| <= 13 && '/' !in address
    ensures r + |address| <= |getIp| && getIp[r..r + |address|] == address
    ensures |address| == 13 || r + |address| == |getIp| || getIp[r + |address|] == '/'
  {
    var cut := getIp[r..if r + 13 <= |getIp| then r + 13 else |getIp|];
    SplitHead(cut, '/');
    Split(cut, '/')[0]
  }

  /** With no '/' in the 13 characters at `r`, the address is exactly those
      13 characters, whatever they are. */
  lemma CutAtThirteen(getIp: string, r: nat)
    requires r + 13 <= |getIp| && '/' !in getIp[r..r + 13]
    ensures AddressAt(getIp, r) == getIp[r..r + 13]
  {
  }

  /** A port in XAddrs survives the cut as a trailing ':' (the socket probe
      then gets a host name it cannot resolve). */
  lemma PortLeavesColon(before: string, after: string)
    ensures AddressAt(before + "192.168.1.64:80" + after, |before|) == "192.168.1.64:"
  {
    var getIp := before + "192.168.1.64:80" + after;
    assert getIp[|before|..|before| + 13] == "192.168.1.64:80"[..13];
    CutAtThirteen(getIp, |before|);
  }

  /** A dotted quad of 14 or 15 characters loses its tail to the cut. */
  lemma LongAddressIsCut(before: string, after: string)
    ensures AddressAt(before + "192.168.100.100" + after, |before|) == "192.168.100.1"
  {
    var getIp := before + "192.168.100.100" + after;
    assert getIp[|before|..|before| + 13] == "192.168.100.100"[..13];
    CutAtThirteen(getIp, |before|);
  }

  /** What one pass of the inner loop body does for a service and a scope
      token: raise, skip, or append an address. */
  datatype Probe = Crash | Skip | Append(address: string)

  function ProbeScope(svc: Service, token: string): Probe {
    match ScopePrefix(token)
    case None => Crash
    case Some(prefix) =>
      var r := Find(svc.xaddrs, prefix);
      if r > 0 && Find(svc.types, "onvif") > 0 then Append(AddressAt(svc.xaddrs, r)) else Skip
  }

  /** The addresses appended so far and whether the filter has raised. */
  datatype Scan = Scan(found: seq<string>, crashed: bool)

  function Continue(acc: Scan, p: Probe): Scan {
    if acc.crashed then acc
    else match p
      case Crash => Scan(acc.found, true)
      case Skip => acc
      case Append(a) => Scan(acc.found + [a], false)
  }

  /** The inner loop over the local scope tokens for one service. */
  function ScanScopes(svc: Service, acc: Scan, tokens: seq<string>): Scan {
    if |tokens| == 0 then acc
    else Continue(ScanScopes(svc, acc, tokens[..|tokens| - 1]), ProbeScope(svc, tokens[|tokens| - 1]))
  }

  /** Both loops: every service against every local scope token, services
      outermost, stopping at the first IndexError. */
  function ScanServices(services: seq<Service>, tokens: seq<string>): Scan {
    if |services| == 0 then Scan([], false)
    else ScanScopes(services[|services| - 1], ScanServices(services[..|services| - 1], tokens), tokens)
  }

  // ---------------------------------------------------------------------
  // When an address is appended

  /** `sub` occurs somewhere in `s`. */
  ghost predicate Occurs(s: string, sub: string) {
    exists i :: OccursAt(s, sub, i)
  }

  /** `s.find(sub) > 0` holds exactly when `sub` occurs in `s` but not at
      its start: a match at index 0 is rejected. */
  lemma FindPositive(s: string, sub: string)
    ensures Find(s, sub) > 0 <==> Occurs(s, sub) && !OccursAt(s, sub, 0)
  {
    if Occurs(s, sub) && !OccursAt(s, sub, 0) {
      assert Find(s, sub) != -1;
    }
  }

  /** A service and token append an address exactly when the token has a
      '.', its two-octet prefix occurs in the XAddrs string other than at
      index 0, and "onvif" occurs in the types string other than at index 0. */
  lemma ProbeAppendsWhen(svc: Service, token: string)
    ensures ProbeScope(svc, token).Append? <==>
      '.' in token &&
      Occurs(svc.xaddrs, ScopePrefix(token).value) && !OccursAt(svc.xaddrs, ScopePrefix(token).value, 0) &&
      Occurs(svc.types, "onvif") && !OccursAt(svc.types, "onvif", 0)
  {
    if '.' in token {
      FindPositive(svc.xaddrs, ScopePrefix(token).value);
      FindPositive(svc.types, "onvif");
    }
  }

  lemma {:induction false} ScopesCrashedStay(svc: Service, acc: Scan, tokens: seq<string>)
    requires acc.crashed
    ensures ScanScopes(svc, acc, tokens) == acc
    decreases |tokens|
  {
    if |tokens| > 0 {
      ScopesCrashedStay(svc, acc, tokens[..|tokens| - 1]);
    }
  }

  /** One more token of the inner loop. */
  lemma ScopesStep(svc: Service, acc: Scan, tokens: seq<string>, j: nat)
    requires j < |tokens|
    ensures ScanScopes(svc, acc, tokens[..j + 1])
      == Continue(ScanScopes(svc, acc, tokens[..j]), ProbeScope(svc, tokens[j]))
  {
    assert tokens[..j + 1][..j] == tokens[..j];
  }

  /** One more service of the outer loop. */
  lemma ServicesStep(services: seq<Service>, tokens: seq<string>, i: nat)
    requires i < |services|
    ensures ScanServices(services[..i + 1], tokens)
      == ScanScopes(services[i], ScanServices(services[..i], tokens), tokens)
  {
    assert services[..i + 1][..i] == services[..i];
  }

  /** Once the inner loop has raised at token `j`, the rest of the tokens
      change nothing. */
  lemma {:induction false} ScopesStopAtCrash(svc: Service, acc: Scan, tokens: seq<string>, j: nat)
    requires j <= |tokens| && ScanScopes(svc, acc, tokens[..j]).crashed
    ensures ScanScopes(svc, acc, tokens) == ScanScopes(svc, acc, tokens[..j])
    decreases |tokens| - j
  {
    if j < |tokens| {
      var next := tokens[..j + 1];
      assert next[..j] == tokens[..j];
      ScopesStopAtCrash(svc, acc, tokens, j + 1);
    } else {
      assert tokens[..j] == tokens;
    }
  }

  /** Once the outer loop has raised at service `i`, the rest of the
      services change nothing. */
  lemma {:induction false} ServicesStopAtCrash(services: seq<Service>, tokens: seq<string>, i: nat)
    requires i <= |services| && ScanServices(services[..i], tokens).crashed
    ensures ScanServices(services, tokens) == ScanServices(services[..i], tokens)
    decreases |services| - i
  {
    if i < |services| {
      var next := services[..i + 1];
      assert next[..i] == services[..i];
      ScopesCrashedStay(services[i], ScanServices(services[..i], tokens), tokens);
      ServicesStopAtCrash(services, tokens, i + 1);
    } else {
      assert services[..i] == services;
    }
  }

  // ---------------------------------------------------------------------
  // When the filter raises

  /** Some token has no '.'. */
  ghost predicate HasDotless(tokens: seq<string>) {
    exists j :: 0 <= j < |tokens| && '.' !in tokens[j]
  }

  lemma HasDotlessSnoc(tokens: seq<string>)
    requires |tokens| > 0
    ensures HasDotless(tokens) <==> HasDotless(tokens[..|tokens| - 1]) || '.' !in tokens[|tokens| - 1]
  {
    ExistsSnoc(tokens, tokens[..|tokens| - 1], t => '.' !in t);
  }

  lemma ProbeCrashes(svc: Service, token: string)
    ensures ProbeScope(svc, token).Crash? <==> '.' !in token
  {
  }

  lemma {:induction false} ScopesCrashIff(svc: Service, acc: Scan, tokens: seq<string>)
    requires !acc.crashed
    ensures ScanScopes(svc, acc, tokens).crashed <==> HasDotless(tokens)
    decreases |tokens|
  {
    if |tokens| > 0 {
      ScopesCrashIff(svc, acc, tokens[..|tokens| - 1]);
      HasDotlessSnoc(tokens);
      ProbeCrashes(svc, tokens[|tokens| - 1]);
    }
  }

  /** The filter raises IndexError exactly when some service was discovered
      and some local scope token has no '.' (an IPv6 address from
      `hostname -I`, say); with no service the tokens are never split. */
  lemma {:induction false} CrashIff(services: seq<Service>, tokens: seq<string>)
    ensures ScanServices(services, tokens).crashed <==> |services| > 0 && HasDotless(tokens)
    decreases |services|
  {
    if |services| > 0 {
      var init := services[..|services| - 1];
      var acc := ScanServices(init, tokens);
      CrashIff(init, tokens);
      if acc.crashed {
        ScopesCrashedStay(services[|services| - 1], acc, tokens);
      } else {
        ScopesCrashIff(services[|services| - 1], acc, tokens);
      }
    }
  }

  // ---------------------------------------------------------------------
  // What is appended

  /** Some token of the inner loop appends `a` for `svc`. */
  ghost predicate AppendedFor(svc: Service, tokens: seq<string>, a: string) {
    exists j :: 0 <= j < |tokens| && ProbeScope(svc, tokens[j]) == Append(a)
  }

  /** Some service and token of the loops append `a`. */
  ghost predicate Contributes(services: seq<Service>, tokens: seq<string>, a: string) {
    exists i :: 0 <= i < |services| && AppendedFor(services[i], tokens, a)
  }

  lemma AppendedForSnoc(svc: Service, tokens: seq<string>, a: string)
    requires |tokens| > 0
    ensures AppendedFor(svc, tokens, a) <==>
      AppendedFor(svc, tokens[..|tokens| - 1], a) || ProbeScope(svc, tokens[|tokens| - 1]) == Append(a)
  {
    ExistsSnoc(tokens, tokens[..|tokens| - 1], t => ProbeScope(svc, t) == Append(a));
  }

  lemma ExistsSnoc<T>(xs: seq<T>, init: seq<T>, p: T -> bool)
    requires |xs| > 0 && init == xs[..|xs| - 1]
    ensures (exists i :: 0 <= i < |xs| && p(xs[i]))
      <==> (exists i :: 0 <= i < |init| && p(init[i])) || p(xs[|xs| - 1])
  {
    if exists i :: 0 <= i < |xs| && p(xs[i]) {
      var i :| 0 <= i < |xs| && p(xs[i]);
      if i < |init| {
        assert init[i] == xs[i];
      }
    }
    if exists i :: 0 <= i < |init| && p(init[i]) {
      var i :| 0 <= i < |init| && p(init[i]);
      assert xs[i] == init[i];
    }
  }

  lemma ContributesSnoc(services: seq<Service>, tokens: seq<string>, a: string)
    requires |services| > 0
    ensures Contributes(services, tokens, a) <==>
      Contributes(services[..|services| - 1], tokens, a) || AppendedFor(services[|services| - 1], tokens, a)
  {
    ExistsSnoc(services, services[..|services| - 1], svc => AppendedFor(svc, tokens, a));
  }

  lemma {:induction false} ScopesFound(svc: Service, acc: Scan, tokens: seq<string>, a: string)
    ensures var r := ScanScopes(svc, acc, tokens);
      (a in r.found ==> a in acc.found || AppendedFor(svc, tokens, a))
      && (!r.crashed && AppendedFor(svc, tokens, a) ==> a in r.found)
      && (a in acc.found ==> a in r.found)
      && (r.crashed ==> acc.crashed || HasDotless(tokens))
    decreases |tokens|
  {
    if |tokens| > 0 {
      var init := tokens[..|tokens| - 1];
      ScopesFound(svc, acc, init, a);
      AppendedForSnoc(svc, tokens, a);
      HasDotlessSnoc(tokens);
      ProbeCrashes(svc, tokens[|tokens| - 1]);
    }
  }

  /** Without a crash, an address is in the list exactly when some
      discovered service and some local scope token append it; with a
      crash, every address in the partial list was appended by one. */
  lemma {:induction false} FoundExactly(services: seq<Service>, tokens: seq<string>, a: string)
    ensures var r := ScanServices(services, tokens);
      (a in r.found ==> Contributes(services, tokens, a))
      && (!r.crashed && Contributes(services, tokens, a) ==> a in r.found)
    decreases |services|
  {
    if |services| > 0 {
      var n := |services| - 1;
      var init, last := services[..n], services[n];
      var acc := ScanServices(init, tokens);
      var r := ScanScopes(last, acc, tokens);
      assert ScanServices(services, tokens) == r;
      FoundExactly(init, tokens, a);
      ScopesFound(last, acc, tokens, a);
      ContributesSnoc(services, tokens, a);
      if acc.crashed {
        ScopesCrashedStay(last, acc, tokens);
      }
    }
  }

  /** What one probe appends: its address, or nothing. */
  function Appended(p: Probe): seq<string> {
    if p.Append? then [p.address] else []
  }

  /** The addresses one service appends, token after token, with no
      de-duplication: the reference the inner loop is compared with. */
  function ProbesFound(svc: Service, tokens: seq<string>): seq<string> {
    if |tokens| == 0 then []
    else ProbesFound(svc, tokens[..|tokens| - 1]) + Appended(ProbeScope(svc, tokens[|tokens| - 1]))
  }

  /** Every service's appends, services outermost and tokens innermost. */
  function AllFound(services: seq<Service>, tokens: seq<string>): seq<string> {
    if |services| == 0 then []
    else AllFound(services[..|services| - 1], tokens) + ProbesFound(services[|services| - 1], tokens)
  }

  lemma {:induction false} ScopesFoundInOrder(svc: Service, acc: Scan, tokens: seq<string>)
    ensures var r := ScanScopes(svc, acc, tokens);
      !r.crashed ==> r.found == acc.found + ProbesFound(svc, tokens)
    decreases |tokens|
  {
    if |tokens| > 0 {
      var init := tokens[..|tokens| - 1];
      ScopesFoundInOrder(svc, acc, init);
      var prev := ScanScopes(svc, acc, init);
      if !prev.crashed {
        var p := ProbeScope(svc, tokens[|tokens| - 1]);
        assert acc.found + ProbesFound(svc, init) + Appended(p)
          == acc.found + (ProbesFound(svc, init) + Appended(p));
      }
    }
  }

  /** Without a crash, the list is every service's appends in turn, one
      entry per matching service and token, in loop order: an address
      matched by several pairs appears once for each of them. */
  lemma {:induction false} FoundInOrder(services: seq<Service>, tokens: seq<string>)
    ensures var r := ScanServices(services, tokens);
      !r.crashed ==> r.found == AllFound(services, tokens)
    decreases |services|
  {
    if |services| > 0 {
      var init := services[..|services| - 1];
      var acc := ScanServices(init, tokens);
      FoundInOrder(init, tokens);
      ScopesFoundInOrder(services[|services| - 1], acc, tokens);
      if acc.crashed {
        ScopesCrashedStay(services[|services| - 1], acc, tokens);
      }
    }
  }

  predicate AddressShape(a: string) {
    |a| <= 13 && '/' !in a
  }

  lemma ProbeShape(svc: Service, token: string)
    ensures ProbeScope(svc, token).Append? ==> AddressShape(ProbeScope(svc, token).address)
  {
  }

  lemma {:induction false} ScopesShape(svc: Service, acc: Scan, tokens: seq<string>)
    requires forall a :: a in acc.found ==> AddressShape(a)
    ensures var r := ScanScopes(svc, acc, tokens);
      forall a :: a in r.found ==> AddressShape(a)
    decreases |tokens|
  {
    if |tokens| > 0 {
      ScopesShape(svc, acc, tokens[..|tokens| - 1]);
      ProbeShape(svc, tokens[|tokens| - 1]);
    }
  }

  /** Every appended address has at most 13 characters and no '/'. */
  lemma {:induction false} FoundShape(services: seq<Service>, tokens: seq<string>)
    ensures var r := ScanServices(services, tokens);
      forall a :: a in r.found ==> AddressShape(a)
    decreases |services|
  {
    if |services| > 0 {
      var init := services[..|services| - 1];
      FoundShape(init, tokens);
      ScopesShape(services[|services| - 1], ScanServices(init, tokens), tokens);
    }
  }

  /** No deduplication: a service that two local scope tokens of the same
      subnet both match is appended twice. */
  lemma AppendedOncePerMatchingToken(svc: Service, t1: string, t2: string)
    requires ProbeScope(svc, t1).Append?
    requires ScopePrefix(t2) == ScopePrefix(t1)
    ensures var a := ProbeScope(svc, t1).address;
      ScanServices([svc], [t1, t2]) == Scan([a, a], false)
  {
    var a := ProbeScope(svc, t1).address;
    var tokens := [t1, t2];
    assert ProbeScope(svc, t2) == Append(a);
    assert [svc][..0] == [];
    assert ScanServices([svc], tokens) == ScanScopes(svc, Scan([], false), tokens);
    assert tokens[..1] == [t1] && [t1][..0] == [];
    var first := ScanScopes(svc, Scan([], false), [t1]);
    assert ProbeScope(svc, t1) == Append(a);
    assert ScanScopes(svc, Scan([], false), [t1][..0]) == Scan([], false);
    assert first == Continue(Scan([], false), Append(a));
    assert ScanScopes(svc, Scan([], false), tokens) == Continue(first, Append(a));
  }
}

=== FILE: encoder.dfy ===
/** The encoder-configuration policy of `IPCamera.capture_frames`
    (IPC.py:133-158): which advertised option entry is used for a camera,
    and how a requested encoding, resolution, quality, frame rate and
    bitrate are checked against the advertised options before they are
    written into the camera's encoder configuration. A request that does
    not fit leaves the field as it was; nothing is reported. */
module Encoder {
  import opened Wrappers

  datatype Resolution = Resolution(width: int, height: int)

  /** One entry of `GetVideoEncoderConfigurationOptions()`: the bounds the
      camera advertises for one encoding. Quality and frame rates are
      Python floats that are only compared, so they are reals here. */
  datatype EncoderOption = EncoderOption(
    encoding: string,
    resolutionsAvailable: seq<Resolution>,
    qualityMin: real, qualityMax: real,
    frameRatesSupported: seq<real>,
    bitrateMin: int, bitrateMax: int)

  /** The arguments of `capture_frames` that configure the encoder. */
  datatype EncoderRequest = EncoderRequest(
    encoding: string, width: int, height: int, quality: real, fps: real, bitrate: int)

  /** The fields of the camera's encoder configuration that the policy can
      change, as a value. */
  datatype EncoderSettings = EncoderSettings(
    encoding: string, width: int, height: int, quality: real,
    frameRateLimit: real, bitrateLimit: int)

  /** The list entry `get_options` builds per discovered address. */
  datatype CameraEncoderOptions = CameraEncoderOptions(ip: string, encoderOptions: seq<EncoderOption>)

  /** The encoder configuration object that `GetVideoEncoderConfigurations()[0]`
      returns and `capture_frames` updates field by field before sending it
      back with `SetVideoEncoderConfiguration`. */
  class EncoderConfiguration {
    var encoding: string
    var width: int
    var height: int
    var quality: real
    var frameRateLimit: real
    var bitrateLimit: int

    constructor (s: EncoderSettings)
      ensures Settings() == s
    {
      encoding, width, height := s.encoding, s.width, s.height;
      quality, frameRateLimit, bitrateLimit := s.quality, s.frameRateLimit, s.bitrateLimit;
    }

    function Settings(): EncoderSettings
      reads this
    {
      EncoderSettings(encoding, width, height, quality, frameRateLimit, bitrateLimit)
    }
  }

  // ---------------------------------------------------------------------
  // Which option list is used

  /** The options of the last entry whose `ip` is `ip`: the lookup loop
      (IPC.py:135-137) overwrites its result at every match. */
  function LastEntryFor(list: seq<CameraEncoderOptions>, ip: string): Option<seq<EncoderOption>> {
    if |list| == 0 then None
    else if list[|list| - 1].ip == ip then Some(list[|list| - 1].encoderOptions)
    else LastEntryFor(list[..|list| - 1], ip)
  }

  /** The lookup finds nothing exactly when no entry has the address, and
      otherwise finds the options of an entry with the address after which
      no entry has it. */
  lemma LastEntryForIsLastMatch(list: seq<CameraEncoderOptions>, ip: string)
    ensures LastEntryFor(list, ip).None? <==> forall i :: 0 <= i < |list| ==> list[i].ip != ip
    ensures LastEntryFor(list, ip).Some? ==>
      exists i :: 0 <= i < |list| && list[i].ip == ip && list[i].encoderOptions == LastEntryFor(list, ip).value
        && forall j :: i < j < |list| ==> list[j].ip != ip
  {
    LastEntryForNone(list, ip);
    if LastEntryFor(list, ip).Some? {
      var i := LastEntryForIndex(list, ip);
    }
  }

  lemma {:induction false} LastEntryForNone(list: seq<CameraEncoderOptions>, ip: string)
    ensures LastEntryFor(list, ip).None? <==> forall i :: 0 <= i < |list| ==> list[i].ip != ip
    decreases |list|
  {
    if |list| > 0 {
      var init := list[..|list| - 1];
      LastEntryForNone(init, ip);
      if list[|list| - 1].ip != ip {
        if exists i :: 0 <= i < |list| && list[i].ip == ip {
          var i :| 0 <= i < |list| && list[i].ip == ip;
          assert init[i] == list[i];
        }
        if exists i :: 0 <= i < |init| && init[i].ip == ip {
          var i :| 0 <= i < |init| && init[i].ip == ip;
          assert init[i] == list[i];
        }
      }
    }
  }

  lemma {:induction false} LastEntryForIndex(list: seq<CameraEncoderOptions>, ip: string) returns (i: nat)
    requires LastEntryFor(list, ip).Some?
    ensures i < |list| && list[i].ip == ip && list[i].encoderOptions == LastEntryFor(list, ip).value
    ensures forall j :: i < j < |list| ==> list[j].ip != ip
    decreases |list|
  {
    var last := |list| - 1;
    if list[last].ip == ip {
      i := last;
    } else {
      var init := list[..last];
      i := LastEntryForIndex(init, ip);
      assert list[i] == init[i];
      forall j | i < j < |list|
        ensures list[j].ip != ip
      {
        if j < last {
          assert list[j] == init[j];
        }
      }
    }
  }

  /** The lookup loop of `capture_frames`. */
  method FindEncoderOptions(list: seq<CameraEncoderOptions>, ip: string) returns (found: Option<seq<EncoderOption>>)
    ensures found == LastEntryFor(list, ip)
  {
    found := None;
    for i := 0 to |list|
      invariant found == LastEntryFor(list[..i], ip)
    {
      assert list[..i + 1][..i] == list[..i];
      if list[i].ip == ip {
        found := Some(list[i].encoderOptions);
      }
    }
    assert list[..|list|] == list;
  }

  // ---------------------------------------------------------------------
  // The apply policy as a function

  /** The effect of one advertised option on the settings. */
  function ApplyOption(s: EncoderSettings, o: EncoderOption, q: EncoderRequest): EncoderSettings {
    if q.encoding != o.encoding then s
    else
      var fits := Resolution(q.width, q.height) in o.resolutionsAvailable;
      EncoderSettings(
        q.encoding,
        if fits then q.width else s.width,
        if fits then q.height else s.height,
        if o.qualityMin <= q.quality <= o.qualityMax then q.quality else s.quality,
        if q.fps in o.frameRatesSupported then q.fps else s.frameRateLimit,
        if o.bitrateMin <= q.bitrate <= o.bitrateMax then q.bitrate else s.bitrateLimit)
  }

  /** The effect of all advertised options, in list order. */
  function ApplyOptions(s: EncoderSettings, opts: seq<EncoderOption>, q: EncoderRequest): EncoderSettings {
    if |opts| == 0 then s
    else ApplyOption(ApplyOptions(s, opts[..|opts| - 1], q), opts[|opts| - 1], q)
  }

  // ---------------------------------------------------------------------
  // The apply policy as the source runs it

  /** The outer loop of IPC.py:144-158 over the advertised options,
      updating `encoders` in place. */
  method ApplyEncoderOptions(encoders: EncoderConfiguration, options: seq<EncoderOption>, q: EncoderRequest)
    modifies encoders
    ensures encoders.Settings() == ApplyOptions(old(encoders.Settings()), options, q)
  {
    for i := 0 to |options|
      invariant encoders.Settings() == ApplyOptions(old(encoders.Settings()), options[..i], q)
    {
      assert options[..i + 1][..i] == options[..i];
      ApplyEncoderOption(encoders, options[i], q);
    }
    assert options[..|options|] == options;
  }

  /** The body of that loop for one advertised option (IPC.py:145-158),
      with its inner loops over the resolutions and the frame rates. */
  method ApplyEncoderOption(encoders: EncoderConfiguration, o: EncoderOption, q: EncoderRequest)
    modifies encoders
    ensures encoders.Settings() == ApplyOption(old(encoders.Settings()), o, q)
  {
    ghost var before := encoders.Settings();
    if q.encoding == o.encoding {
      encoders.encoding := q.encoding;
      for k := 0 to |o.resolutionsAvailable|
        invariant encoders.encoding == q.encoding
        invariant encoders.quality == before.quality && encoders.frameRateLimit == before.frameRateLimit
        invariant encoders.bitrateLimit == before.bitrateLimit
        invariant Resolution(q.width, q.height) in o.resolutionsAvailable[..k] ==>
          encoders.width == q.width && encoders.height == q.height
        invariant Resolution(q.width, q.height) !in o.resolutionsAvailable[..k] ==>
          encoders.width == before.width && encoders.height == before.height
      {
        assert o.resolutionsAvailable[..k + 1] == o.resolutionsAvailable[..k] + [o.resolutionsAvailable[k]];
        var available := o.resolutionsAvailable[k];
        if q.width == available.width && q.height == available.height {
          encoders.width := q.width;
          encoders.height := q.height;
        }
      }
      assert o.resolutionsAvailable[..|o.resolutionsAvailable|] == o.resolutionsAvailable;
      if o.qualityMin <= q.quality <= o.qualityMax {
        encoders.quality := q.quality;
      }
      ghost var afterQuality := encoders.Settings();
      for k := 0 to |o.frameRatesSupported|
        invariant encoders.Settings() == afterQuality.(frameRateLimit := encoders.frameRateLimit)
        invariant q.fps in o.frameRatesSupported[..k] ==> encoders.frameRateLimit == q.fps
        invariant q.fps !in o.frameRatesSupported[..k] ==> encoders.frameRateLimit == before.frameRateLimit
      {
        assert o.frameRatesSupported[..k + 1] == o.frameRatesSupported[..k] + [o.frameRatesSupported[k]];
        if q.fps == o.frameRatesSupported[k] {
          encoders.frameRateLimit := q.fps;
        }
      }
      assert o.frameRatesSupported[..|o.frameRatesSupported|] == o.frameRatesSupported;
      if o.bitrateMin <= q.bitrate <= o.bitrateMax {
        encoders.bitrateLimit := q.bitrate;
      }
    }
  }

  // ---------------------------------------------------------------------
  // What the policy guarantees

  /** The five checks of the policy, one per configuration field. */
  datatype Field = EncodingField | ResolutionField | QualityField | FrameRateField | BitrateField

  /** Option `o` lets request `q` set field `f`. */
  predicate Accepts(o: EncoderOption, q: EncoderRequest, f: Field) {
    o.encoding == q.encoding &&
    match f
    case EncodingField => true
    case ResolutionField => Resolution(q.width, q.height) in o.resolutionsAvailable
    case QualityField => o.qualityMin <= q.quality <= o.qualityMax
    case FrameRateField => q.fps in o.frameRatesSupported
    case BitrateField => o.bitrateMin <= q.bitrate <= o.bitrateMax
  }

  /** Some advertised option lets the request set field `f`. */
  ghost predicate Offered(opts: seq<EncoderOption>, q: EncoderRequest, f: Field) {
    exists i :: 0 <= i < |opts| && Accepts(opts[i], q, f)
  }

  lemma OfferedSnoc(opts: seq<EncoderOption>, q: EncoderRequest, f: Field)
    requires |opts| > 0
    ensures Offered(opts, q, f) <==> Offered(opts[..|opts| - 1], q, f) || Accepts(opts[|opts| - 1], q, f)
  {
    var init := opts[..|opts| - 1];
    assert forall i :: 0 <= i < |init| ==> init[i] == opts[i];
  }

  /** Field by field: each field takes the requested value exactly when some
      option of the requested encoding accepts it, and otherwise keeps its
      value; the encoding is set exactly when some option advertises it. */
  lemma {:induction false} ApplyOptionsFieldwise(s: EncoderSettings, opts: seq<EncoderOption>, q: EncoderRequest)
    ensures var r := ApplyOptions(s, opts, q);
      r.encoding == (if Offered(opts, q, EncodingField) then q.encoding else s.encoding)
      && (r.width, r.height) == (if Offered(opts, q, ResolutionField) then (q.width, q.height) else (s.width, s.height))
      && r.quality == (if Offered(opts, q, QualityField) then q.quality else s.quality)
      && r.frameRateLimit == (if Offered(opts, q, FrameRateField) then q.fps else s.frameRateLimit)
      && r.bitrateLimit == (if Offered(opts, q, BitrateField) then q.bitrate else s.bitrateLimit)
    decreases |opts|
  {
    if |opts| > 0 {
      ApplyOptionsFieldwise(s, opts[..|opts| - 1], q);
      OfferedSnoc(opts, q, EncodingField);
      OfferedSnoc(opts, q, ResolutionField);
      OfferedSnoc(opts, q, QualityField);
      OfferedSnoc(opts, q, FrameRateField);
      OfferedSnoc(opts, q, BitrateField);
    }
  }

  /** A request whose encoding no option advertises changes nothing. */
  lemma UnmatchedEncodingChangesNothing(s: EncoderSettings, opts: seq<EncoderOption>, q: EncoderRequest)
    requires forall i :: 0 <= i < |opts| ==> opts[i].encoding != q.encoding
    ensures ApplyOptions(s, opts, q) == s
  {
    ApplyOptionsFieldwise(s, opts, q);
  }

  /** Every field ends up either as it was or at a value that an option of
      the requested encoding advertises: a listed resolution and frame
      rate, a quality and bitrate inside the inclusive ranges. */
  lemma AppliedValuesAreAdvertised(s: EncoderSettings, opts: seq<EncoderOption>, q: EncoderRequest)
    ensures var r := ApplyOptions(s, opts, q);
      ((r.width, r.height) == (s.width, s.height) ||
        exists i :: 0 <= i < |opts| && opts[i].encoding == q.encoding
          && Resolution(r.width, r.height) in opts[i].resolutionsAvailable)
      && (r.quality == s.quality ||
        exists i :: 0 <= i < |opts| && opts[i].encoding == q.encoding
          && opts[i].qualityMin <= r.quality <= opts[i].qualityMax)
      && (r.frameRateLimit == s.frameRateLimit ||
        exists i :: 0 <= i < |opts| && opts[i].encoding == q.encoding
          && r.frameRateLimit in opts[i].frameRatesSupported)
      && (r.bitrateLimit == s.bitrateLimit ||
        exists i :: 0 <= i < |opts| && opts[i].encoding == q.encoding
          && opts[i].bitrateMin <= r.bitrateLimit <= opts[i].bitrateMax)
  {
    ApplyOptionsFieldwise(s, opts, q);
  }

  /** A camera advertising H264 at 1920x1080 or 1280x720, 25 or 30 fps,
      quality 0 to 5 and bitrate 512 to 8192: a request for 1920x1080 at
      25 fps and 4096 is applied, and its quality 9.0 is silently dropped. */
  lemma OutOfRangeQualityIsIgnored(s: EncoderSettings)
    ensures var o := EncoderOption("H264", [Resolution(1920, 1080), Resolution(1280, 720)],
                                   0.0, 5.0, [25.0, 30.0], 512, 8192);
      ApplyOptions(s, [o], EncoderRequest("H264", 1920, 1080, 9.0, 25.0, 4096))
        == EncoderSettings("H264", 1920, 1080, s.quality, 25.0, 4096)
  {
    var o := EncoderOption("H264", [Resolution(1920, 1080), Resolution(1280, 720)],
                           0.0, 5.0, [25.0, 30.0], 512, 8192);
    assert [o][..0] == [];
  }
}

=== FILE: framequeue.dfy ===
/** Python's `queue.Queue` as the capture code uses it, run sequentially.
    `maxsize` 0 means unbounded, as in Python; the camera classes create
    their queue with `Queue()`, that is with maxsize 0. */
module FrameQueues {
  import opened Wrappers

  /** A decoded video frame; its pixels are not modelled. */
  type Frame

  datatype QueueError = Full | Empty

  /** The contents after one publish step of the capture loop: `put_nowait`,
      and when that raises `queue.Full`, `get_nowait` then `put_nowait`. */
  function AfterPublish<T>(items: seq<T>, maxsize: nat, x: T): seq<T> {
    if 0 < maxsize <= |items| then items[1..] + [x] else items + [x]
  }

  /** The contents after publishing `xs` in order, with no reads between. */
  function AfterPublishing<T>(items: seq<T>, maxsize: nat, xs: seq<T>): seq<T> {
    if |xs| == 0 then items
    else AfterPublish(AfterPublishing(items, maxsize, xs[..|xs| - 1]), maxsize, xs[|xs| - 1])
  }

  /** The last `n` elements of `s` (all of them when there are fewer). */
  function Newest<T>(s: seq<T>, n: nat): (r: seq<T>)
    ensures |r| <= n && |r| <= |s|
  {
    if |s| <= n then s else s[|s| - n..]
  }

  /** With the unbounded `Queue()` of the source every publish appends: the
      eviction branch is never taken and the consumer sees every frame in
      publish order. */
  lemma {:induction false} UnboundedPublishingAppends<T>(items: seq<T>, xs: seq<T>)
    ensures AfterPublishing(items, 0, xs) == items + xs
    decreases |xs|
  {
    if |xs| > 0 {
      var init := xs[..|xs| - 1];
      UnboundedPublishingAppends(items, init);
      assert xs == init + [xs[|xs| - 1]];
    }
  }

  /** One publish onto the newest `maxsize` frames of a history gives the
      newest `maxsize` frames of the history extended by that frame. */
  lemma NewestStep<T>(before: seq<T>, maxsize: nat, x: T)
    requires 0 < maxsize
    ensures AfterPublish(Newest(before, maxsize), maxsize, x) == Newest(before + [x], maxsize)
  {
    var all := before + [x];
    if |before| > maxsize {
      assert all[|all| - maxsize..] == before[|before| - maxsize..][1..] + [x];
    } else if |before| == maxsize {
      assert all[|all| - maxsize..] == before[1..] + [x];
    }
  }

  /** A bounded queue that starts within its bound holds exactly the
      `maxsize` most recent frames of everything it held or was given. */
  lemma {:induction false} BoundedPublishingKeepsNewest<T>(items: seq<T>, maxsize: nat, xs: seq<T>)
    requires 0 < maxsize && |items| <= maxsize
    ensures AfterPublishing(items, maxsize, xs) == Newest(items + xs, maxsize)
    decreases |xs|
  {
    if |xs| == 0 {
      assert items + xs == items;
    } else {
      var init, x := xs[..|xs| - 1], xs[|xs| - 1];
      BoundedPublishingKeepsNewest(items, maxsize, init);
      NewestStep(items + init, maxsize, x);
      assert items + xs == (items + init) + [x];
    }
  }

  /** With room for one frame, the queue holds only the latest publish. */
  lemma SingleSlotHoldsLatest<T>(items: seq<T>, xs: seq<T>)
    requires |items| <= 1 && |xs| > 0
    ensures AfterPublishing(items, 1, xs) == [xs[|xs| - 1]]
  {
    BoundedPublishingKeepsNewest(items, 1, xs);
    var all := items + xs;
    assert all[|all| - 1] == xs[|xs| - 1];
  }

  class FrameQueue<T> {
    var items: seq<T>
    const maxsize: nat

    ghost predicate Valid()
      reads this
    {
      maxsize > 0 ==> |items| <= maxsize
    }

    /** `Queue(maxsize)`; the source calls it with no argument. */
    constructor (maxsize: nat := 0)
      ensures Valid() && this.maxsize == maxsize && items == []
    {
      this.maxsize := maxsize;
      items := [];
    }

    /** `Queue.full()`. */
    predicate IsFull()
      reads this
    {
      0 < maxsize <= |items|
    }

    /** `put_nowait`: appends, or raises `queue.Full` and changes nothing. */
    method PutNowait(x: T) returns (outcome: Outcome<QueueError>)
      modifies this
      ensures if old(IsFull()) then outcome == Fail(Full) && items == old(items)
              else outcome == Pass && items == old(items) + [x]
    {
      if IsFull() {
        outcome := Fail(Full);
      } else {
        items := items + [x];
        outcome := Pass;
      }
    }

    /** `get_nowait`: removes the oldest item, or raises `queue.Empty`. */
    method GetNowait() returns (r: Result<T, QueueError>)
      modifies this
      ensures if old(items) == [] then r == Failure(Empty) && items == []
              else r == Success(old(items)[0]) && items == old(items)[1..]
    {
      if items == [] {
        r := Failure(Empty);
      } else {
        r := Success(items[0]);
        items := items[1..];
      }
    }

    /** `get()`: blocks until an item is there, then removes the oldest one.
        Sequentially, the wait is the requirement that one is there. */
    method Get() returns (x: T)
      requires items != []
      modifies this
      ensures x == old(items)[0] && items == old(items)[1..]
    {
      var r := GetNowait();
      x := r.value;
    }

    /** The publish step of both capture loops (IPC.py:198-202,
        USBC.py:137-141); `dropped` is the item `get_nowait` discarded. */
    method Publish(x: T) returns (dropped: Option<T>)
      requires Valid()
      modifies this
      ensures Valid()
      ensures items == AfterPublish(old(items), maxsize, x)
      ensures dropped == if old(IsFull()) then Some(old(items)[0]) else None
    {
      var outcome := PutNowait(x);
      dropped := None;
      if outcome.Fail? {
        var oldest := GetNowait();
        dropped := Some(oldest.value);
        outcome := PutNowait(x);
        assert outcome.Pass?;
      }
    }
  }

  /** Two frames published before any read come out of the source's
      unbounded queue oldest first; neither is lost. */
  method UnboundedQueueDeliversInOrder<T>(f1: T, f2: T) returns (first: T, second: T)
    ensures first == f1 && second == f2
  {
    var q := new FrameQueue<T>();
    var dropped := q.Publish(f1);
    dropped := q.Publish(f2);
    first := q.Get();
    second := q.Get();
  }

  /** With `maxsize` 1 the eviction branch would run: the second publish
      drops the first frame and a read sees only the second. */
  method SingleSlotQueueKeepsNewest<T>(f1: T, f2: T) returns (latest: T, dropped: Option<T>)
    ensures latest == f2 && dropped == Some(f1)
  {
    var q := new FrameQueue<T>(1);
    dropped := q.Publish(f1);
    dropped := q.Publish(f2);
    latest := q.Get();
  }
}

=== FILE: ipc.dfy ===
/** The network camera class `IPCamera` of IPC.py. Its collaborators are
    inputs: the WS-Discovery responses, the output of `hostname -I`, the
    ONVIF option query, the encoder configuration object the camera hands
    out, the stream URI it reports and the frames OpenCV reads. */
module IPC {
  import opened Wrappers
  import opened PyStr
  import opened FrameQueues
  import opened Discovery
  import opened Encoder
  import opened Locator

  /** `capture_frames` indexes `encoder_options` while it is still None
      when no options entry has the address: a TypeError. */
  datatype CaptureError = NoEncoderOptions

  class IPCamera {
    var username: string
    var password: string
    var port: int
    var lst: seq<string>
    var frameQueue: FrameQueue<Frame>
    var camerasEncoderOptionsList: seq<CameraEncoderOptions>

    ghost predicate Valid()
      reads this, frameQueue
    {
      frameQueue.maxsize == 0 && frameQueue.Valid()
      && forall a :: a in lst ==> AddressShape(a)
    }

    /** The field initialisation of `__init__` (IPC.py:15-22); the
        discovery and the option query it also runs are `Create`. */
    constructor (username: string, password: string, port: int := 80)
      ensures Valid() && fresh(frameQueue)
      ensures this.username == username && this.password == password && this.port == port
      ensures lst == [] && frameQueue.items == [] && camerasEncoderOptionsList == []
    {
      this.username, this.password, this.port := username, password, port;
      lst := [];
      frameQueue := new FrameQueue<Frame>();
      camerasEncoderOptionsList := [];
    }

    /** `IPCamera(username, password, port)` (IPC.py:15-23): discovery,
        then one option entry per discovered address. Raises, and gives
        no camera, when discovery raises. */
    static method Create(username: string, password: string, port: int,
                         services: seq<Service>, scope: string,
                         queryOptions: string -> seq<EncoderOption>)
      returns (r: Result<IPCamera, DiscoveryError>)
      ensures r.Failure? <==> ScanServices(services, Fields(scope)).crashed
      ensures r.Success? ==>
        var cam := r.value;
        fresh(cam) && fresh(cam.frameQueue) && cam.Valid()
        && cam.username == username && cam.password == password && cam.port == port
        && Sorted(cam.lst) && multiset(cam.lst) == multiset(ScanServices(services, Fields(scope)).found)
        && cam.frameQueue.items == []
        && |cam.camerasEncoderOptionsList| == |cam.lst|
        && forall i :: 0 <= i < |cam.lst| ==>
             cam.camerasEncoderOptionsList[i] == CameraEncoderOptions(cam.lst[i], queryOptions(cam.lst[i]))
    {
      var cam := new IPCamera(username, password, port);
      var outcome := cam.GetCameraList(services, scope);
      if outcome.Fail? {
        return Failure(outcome.error);
      }
      assert [] + ScanServices(services, Fields(scope)).found == ScanServices(services, Fields(scope)).found;
      var list := cam.GetOptions(queryOptions);
      cam.camerasEncoderOptionsList := list;
      r := Success(cam);
    }

    /** The address filter of `get_camera_list` (IPC.py:25-46): every
        service against every whitespace-separated token of `scope`,
        appending matches to `lst`, then sorting it. On IndexError the
        appends made so far stay and nothing is sorted. */
    method GetCameraList(services: seq<Service>, scope: string) returns (outcome: Outcome<DiscoveryError>)
      requires Valid()
      modifies this`lst
      ensures Valid()
      ensures var scan := ScanServices(services, Fields(scope));
        if scan.crashed then outcome == Fail(IndexError) && lst == old(lst) + scan.found
        else outcome == Pass && Sorted(lst) && multiset(lst) == multiset(old(lst) + scan.found)
    {
      var tokens := Fields(scope);
      FoundShape(services, tokens);
      var i := 0;
      while i < |services|
        invariant i <= |services|
        invariant !ScanServices(services[..i], tokens).crashed
        invariant lst == old(lst) + ScanServices(services[..i], tokens).found
      {
        ServicesStep(services, tokens, i);
        var crashed := ProbeScopes(services[i], tokens, old(lst), ScanServices(services[..i], tokens));
        if crashed {
          ServicesStopAtCrash(services, tokens, i + 1);
          return Fail(IndexError);
        }
        i := i + 1;
      }
      assert services[..i] == services;
      ghost var unsorted := lst;
      lst := SortStrings(lst);
      assert forall a :: a in lst ==> a in multiset(unsorted);
      outcome := Pass;
    }

    /** The inner loop of `get_camera_list` (IPC.py:39-44) for one service:
        `ip_scope.split('.')` raises IndexError on a token without '.';
        otherwise the address is appended when the prefix is found past the
        start of XAddrs and "onvif" past the start of Types. Continues the
        scan `acc` of the services before. */
    method ProbeScopes(service: Service, tokens: seq<string>, ghost base: seq<string>, ghost acc: Scan)
      returns (crashed: bool)
      requires !acc.crashed && lst == base + acc.found
      modifies this`lst
      ensures crashed == ScanScopes(service, acc, tokens).crashed
      ensures lst == base + ScanScopes(service, acc, tokens).found
    {
      ghost var scan := acc;
      var j := 0;
      while j < |tokens|
        invariant j <= |tokens|
        invariant scan == ScanScopes(service, acc, tokens[..j]) && !scan.crashed
        invariant lst == base + scan.found
      {
        ScopesStep(service, acc, tokens, j);
        var crash := ProbeToken(service, tokens[j]);
        if crash {
          ScopesStopAtCrash(service, acc, tokens, j + 1);
          return true;
        }
        scan := Continue(scan, ProbeScope(service, tokens[j]));
        j := j + 1;
      }
      assert tokens[..j] == tokens;
      crashed := false;
    }

    /** The loop body of `get_camera_list` (IPC.py:40-44) for one service
        and one scope token: IndexError on a token without '.', otherwise
        the address is appended when the two-octet prefix is found past the
        start of XAddrs and "onvif" past the start of Types. */
    method ProbeToken(service: Service, ipScope: string) returns (crash: bool)
      modifies this`lst
      ensures crash <==> ProbeScope(service, ipScope).Crash?
      ensures lst == old(lst) + Appended(ProbeScope(service, ipScope))
    {
      var getIp, getTypes := service.xaddrs, service.types;
      var prefix := ScopePrefix(ipScope);
      if prefix.None? {
        return true;
      }
      var result := Find(getIp, prefix.value);
      if result > 0 && Find(getTypes, "onvif") > 0 {
        var stringResult := AddressAt(getIp, result);
        lst := lst + [stringResult];
      }
      crash := false;
    }

    /** `get_options` (IPC.py:108-123): one entry per discovered address, in
        list order, holding what the ONVIF option query returns for it. */
    method GetOptions(queryOptions: string -> seq<EncoderOption>) returns (list: seq<CameraEncoderOptions>)
      ensures |list| == |lst|
      ensures forall i :: 0 <= i < |lst| ==> list[i] == CameraEncoderOptions(lst[i], queryOptions(lst[i]))
    {
      list := [];
      for i := 0 to |lst|
        invariant |list| == i
        invariant forall k :: 0 <= k < i ==> list[k] == CameraEncoderOptions(lst[k], queryOptions(lst[k]))
      {
        list := list + [CameraEncoderOptions(lst[i], queryOptions(lst[i]))];
      }
    }

    /** `capture_frames` (IPC.py:133-202) up to the frames read so far:
        choose the options entry, apply the request to `encoders` (which is
        then sent back to the camera), build the stream locator and publish
        each frame. The queue is unbounded, so every frame is appended. */
    method CaptureFrames(ip: string, request: EncoderRequest, encoders: EncoderConfiguration,
                         streamUri: string, frames: seq<Frame>)
      returns (r: Result<string, CaptureError>)
      requires Valid()
      modifies encoders, frameQueue
      ensures Valid()
      ensures match LastEntryFor(camerasEncoderOptionsList, ip)
        case None =>
          r == Failure(NoEncoderOptions)
          && encoders.Settings() == old(encoders.Settings()) && frameQueue.items == old(frameQueue.items)
        case Some(options) =>
          r == Success(StreamLocator(username, password, streamUri))
          && encoders.Settings() == ApplyOptions(old(encoders.Settings()), options, request)
          && frameQueue.items == old(frameQueue.items) + frames
    {
      var encoderOptions := FindEncoderOptions(camerasEncoderOptionsList, ip);
      if encoderOptions.None? {
        return Failure(NoEncoderOptions);
      }
      ApplyEncoderOptions(encoders, encoderOptions.value, request);
      var uri := StreamLocator(username, password, streamUri);
      ghost var applied := encoders.Settings();
      for k := 0 to |frames|
        invariant frameQueue.Valid() && encoders.Settings() == applied
        invariant frameQueue.items == AfterPublishing(old(frameQueue.items), 0, frames[..k])
      {
        assert frames[..k + 1][..k] == frames[..k];
        var dropped := frameQueue.Publish(frames[k]);
      }
      assert frames[..|frames|] == frames;
      UnboundedPublishingAppends(old(frameQueue.items), frames);
      r := Success(uri);
    }

    /** `get_frame` (IPC.py:204-205): the oldest unread frame. `Queue.get`
        blocks until there is one; here one must be there. */
    method GetFrame() returns (frame: Frame)
      requires Valid() && frameQueue.items != []
      modifies frameQueue
      ensures Valid()
      ensures frame == old(frameQueue.items)[0] && frameQueue.items == old(frameQueue.items)[1..]
    {
      frame := frameQueue.Get();
    }
  }
}

=== FILE: locator.dfy ===
/** The RTSP stream locator both IPC.py code paths build (IPC.py:96-98
    and IPC.py:171-172): every "rtsp://" is removed from the URI the camera
    reports, and "rtsp://user:password@" is put in front. The credentials
    form the userinfo component of section 3.2.1 of RFC 3986, written
    without percent-encoding. */
module Locator {
  import opened Wrappers
  import opened PyStr

  const Scheme := "rtsp://"

  function StreamLocator(username: string, password: string, uri: string): string {
    Scheme + username + ":" + password + "@" + ReplaceAll(uri, Scheme, "")
  }

  /** What a reader of the locator recovers from it. */
  datatype Credentials = Credentials(username: string, password: string, hostPath: string)

  /** Reads a locator the way section 3.2.1 of RFC 3986 splits userinfo:
      the user name ends at the first ':', the password at the next '@'. */
  function ParseLocator(locator: string): Option<Credentials> {
    if |locator| < |Scheme| || locator[..|Scheme|] != Scheme then None
    else match Partition(locator[|Scheme|..], ':')
      case None => None
      case Some(user) =>
        match Partition(user.1, '@')
        case None => None
        case Some(pass) => Some(Credentials(user.0, pass.0, pass.1))
  }

  /** Credentials without the delimiters they are read back by are
      recovered, followed by the device URI with its schemes removed. */
  lemma LocatorRoundTrip(username: string, password: string, uri: string)
    requires ':' !in username && '@' !in password
    ensures ParseLocator(StreamLocator(username, password, uri))
      == Some(Credentials(username, password, ReplaceAll(uri, Scheme, "")))
  {
    var rest := ReplaceAll(uri, Scheme, "");
    var loc := StreamLocator(username, password, uri);
    var afterScheme := username + [':'] + (password + "@" + rest);
    assert loc == Scheme + afterScheme;
    assert loc[..|Scheme|] == Scheme && loc[|Scheme|..] == afterScheme;
    PartitionOf(username, ':', password + "@" + rest);
    PartitionOf(password, '@', rest);
  }

  /** The credentials are not escaped: a password with an '@' is cut short
      by any reader that splits userinfo at the first '@'. */
  lemma PasswordWithAtIsMisread(username: string, password: string, uri: string)
    requires ':' !in username && '@' in password
    ensures ParseLocator(StreamLocator(username, password, uri)).Some?
    ensures ParseLocator(StreamLocator(username, password, uri)).value.password != password
  {
    var rest := ReplaceAll(uri, Scheme, "");
    var loc := StreamLocator(username, password, uri);
    var afterScheme := username + [':'] + (password + "@" + rest);
    assert loc == Scheme + afterScheme;
    assert loc[..|Scheme|] == Scheme && loc[|Scheme|..] == afterScheme;
    PartitionOf(username, ':', password + "@" + rest);
  }

  /** The credentials are not escaped, so the locator does not determine
      them, whichever '@' a reader splits at: a password holding an '@'
      and a shorter password with the rest moved into the device URI give
      the same locator. */
  lemma AtInPasswordIsAmbiguous(username: string, a: string, b: string, hostPath: string)
    requires forall i :: !OccursAt(b + "@" + hostPath, Scheme, i)
    ensures a + "@" + b != a
    ensures StreamLocator(username, a + "@" + b, Scheme + hostPath)
         == StreamLocator(username, a, Scheme + (b + "@" + hostPath))
  {
    var tail := b + "@" + hostPath;
    forall i ensures !OccursAt(hostPath, Scheme, i) {
      if OccursAt(hostPath, Scheme, i) {
        assert tail[i + |b| + 1..i + |b| + 1 + |Scheme|] == hostPath[i..i + |Scheme|];
        assert OccursAt(tail, Scheme, i + |b| + 1);
      }
    }
    DeviceUriGainsCredentials(username, a + "@" + b, hostPath);
    DeviceUriGainsCredentials(username, a, tail);
  }

  /** A device URI of the usual form "rtsp://host:port/path" keeps its host
      and path and gains the credentials. */
  lemma DeviceUriGainsCredentials(username: string, password: string, hostPath: string)
    requires forall i :: !OccursAt(hostPath, Scheme, i)
    ensures StreamLocator(username, password, Scheme + hostPath)
      == Scheme + username + ":" + password + "@" + hostPath
  {
    ReplaceAtFront(Scheme, hostPath, "");
    ReplaceAbsent(hostPath, Scheme, "");
  }

  /** `replace` makes a single pass, so removing "rtsp://" can itself form
      a new "rtsp://". */
  lemma RemovalCanFormScheme()
    ensures ReplaceAll("rtsrtsp://p://", Scheme, "") == Scheme
  {
    var s := "rtsrtsp://p://";
    assert s[..7][3] != Scheme[3];
    assert s[1..][..7][0] != Scheme[0];
    assert s[2..][..7][0] != Scheme[0];
    assert s[3..][..7] == Scheme;
    assert s[3..][7..] == "p://";
    assert ReplaceAll("p://", Scheme, "") == "p://";
  }
}

=== FILE: printdict.dfy ===
/** `print_dict` (IPC.py:215-221): a nested dictionary rendered one key per
    line, nested dictionaries four spaces deeper. The model returns the
    lines instead of printing them. */
module PrintDict {

  /** A dictionary value: a nested dictionary, or any other value as the
      text `str()` gives for it. Entries keep insertion order, as Python
      dictionaries do. */
  datatype Value = Scalar(text: string) | Dict(entries: seq<Entry>)
  datatype Entry = Entry(key: string, value: Value)

  /** `' ' * n` */
  function Spaces(n: nat): (s: string)
    ensures |s| == n && forall i :: 0 <= i < n ==> s[i] == ' '
  {
    if n == 0 then "" else Spaces(n - 1) + " "
  }

  /** The lines `print_dict(d, indent)` prints for a dictionary with these
      entries. */
  function Render(entries: seq<Entry>, indent: nat): seq<string>
    decreases entries
  {
    if |entries| == 0 then []
    else
      var e := entries[0];
      (match e.value
       case Dict(sub) => [Spaces(indent) + e.key + ":"] + Render(sub, indent + 4)
       case Scalar(text) => [Spaces(indent) + e.key + ": " + text])
      + Render(entries[1..], indent)
  }

  /** Every key at every depth, in pre-order, with the indentation it
      belongs at: a key of a nested dictionary sits four spaces deeper
      than the key that holds that dictionary. */
  function Outline(entries: seq<Entry>, indent: nat): seq<(nat, string)>
    decreases entries
  {
    if |entries| == 0 then []
    else
      var e := entries[0];
      [(indent, e.key)]
      + (match e.value case Dict(sub) => Outline(sub, indent + 4) case Scalar(_) => [])
      + Outline(entries[1..], indent)
  }

  /** `line` starts with the indentation and the name of `key`, which is
      indented at least `indent`. */
  predicate LineFollows(line: string, key: (nat, string), indent: nat) {
    key.0 >= indent && |line| >= key.0 + |key.1| && line[..key.0 + |key.1|] == Spaces(key.0) + key.1
  }

  predicate Follows(lines: seq<string>, keys: seq<(nat, string)>, indent: nat) {
    |lines| == |keys| && forall i :: 0 <= i < |lines| ==> LineFollows(lines[i], keys[i], indent)
  }

  lemma FollowsConcat(lines1: seq<string>, keys1: seq<(nat, string)>,
                      lines2: seq<string>, keys2: seq<(nat, string)>, indent: nat)
    requires Follows(lines1, keys1, indent) && Follows(lines2, keys2, indent)
    ensures Follows(lines1 + lines2, keys1 + keys2, indent)
  {
    forall i | 0 <= i < |lines1 + lines2|
      ensures LineFollows((lines1 + lines2)[i], (keys1 + keys2)[i], indent)
    {
      if i >= |lines1| {
        assert (lines1 + lines2)[i] == lines2[i - |lines1|];
        assert (keys1 + keys2)[i] == keys2[i - |keys1|];
      }
    }
  }

  lemma FollowsShallower(lines: seq<string>, keys: seq<(nat, string)>, indent: nat, shallower: nat)
    requires Follows(lines, keys, indent) && shallower <= indent
    ensures Follows(lines, keys, shallower)
  {
    forall i | 0 <= i < |lines|
      ensures LineFollows(lines[i], keys[i], shallower)
    {
      assert LineFollows(lines[i], keys[i], indent);
    }
  }

  /** One line per key at every depth, in pre-order: line `i` starts with
      the indentation and the key of the `i`-th key of the outline, and
      no line is indented less than the call's indentation. */
  lemma {:induction false} RenderFollowsOutline(entries: seq<Entry>, indent: nat)
    ensures Follows(Render(entries, indent), Outline(entries, indent), indent)
    decreases entries
  {
    if |entries| > 0 {
      var e := entries[0];
      RenderFollowsOutline(entries[1..], indent);
      var first := [(indent, e.key)];
      match e.value
      case Dict(sub) =>
        RenderFollowsOutline(sub, indent + 4);
        FollowsShallower(Render(sub, indent + 4), Outline(sub, indent + 4), indent + 4, indent);
        HeaderFollows(e.key, ":", indent);
        FollowsConcat([Spaces(indent) + e.key + ":"], first, Render(sub, indent + 4), Outline(sub, indent + 4), indent);
        FollowsConcat([Spaces(indent) + e.key + ":"] + Render(sub, indent + 4), first + Outline(sub, indent + 4),
                      Render(entries[1..], indent), Outline(entries[1..], indent), indent);
      case Scalar(text) =>
        HeaderFollows(e.key, ": " + text, indent);
        assert Spaces(indent) + e.key + ": " + text == Spaces(indent) + e.key + (": " + text);
        FollowsConcat([Spaces(indent) + e.key + ": " + text], first,
                      Render(entries[1..], indent), Outline(entries[1..], indent), indent);
        assert Outline(entries, indent) == first + [] + Outline(entries[1..], indent);
    }
  }

  lemma HeaderFollows(key: string, tail: string, indent: nat)
    ensures Follows([Spaces(indent) + key + tail], [(indent, key)], indent)
  {
    var head := Spaces(indent) + key;
    assert (head + tail)[..|head|] == head;
  }

  /** A dictionary without nested dictionaries prints one "key: value" line
      per entry, in order. */
  lemma {:induction false} FlatDictionary(entries: seq<Entry>, indent: nat)
    requires forall i :: 0 <= i < |entries| ==> entries[i].value.Scalar?
    ensures Render(entries, indent)
      == seq(|entries|, i requires 0 <= i < |entries| =>
               Spaces(indent) + entries[i].key + ": " + entries[i].value.text)
    decreases entries
  {
    if |entries| > 0 {
      FlatDictionary(entries[1..], indent);
    }
  }
}

=== FILE: pystr.dfy ===
/** The Python string built-ins the camera code relies on, with Python's
    semantics: str.find, str.split(sep), str.split(), str.replace, string
    ordering, list.sort on strings and str(int). */
module PyStr {
  import opened Wrappers

  // ---------------------------------------------------------------------
  // str.find

  /** `sub` occurs in `s` starting at index `i`. */
  predicate OccursAt(s: string, sub: string, i: int) {
    0 <= i && i + |sub| <= |s| && s[i..i + |sub|] == sub
  }

  /** The first index at or after `from` where `sub` occurs, or -1. */
  function FindFrom(s: string, sub: string, from: nat): (r: int)
    requires from <= |s|
    ensures r == -1 || (from <= r && OccursAt(s, sub, r))
    ensures r == -1 ==> forall i :: from <= i ==> !OccursAt(s, sub, i)
    ensures r >= 0 ==> forall i :: from <= i < r ==> !OccursAt(s, sub, i)
    decreases |s| - from
  {
    if from + |sub| > |s| then -1
    else if s[from..from + |sub|] == sub then from
    else FindFrom(s, sub, from + 1)
  }

  /** Python's `s.find(sub)`: the lowest index where `sub` occurs, -1 when
      it does not occur at all. */
  function Find(s: string, sub: string): (r: int)
    ensures r >= -1
    ensures r == -1 <==> forall i :: !OccursAt(s, sub, i)
    ensures r >= 0 ==> OccursAt(s, sub, r) && forall i :: 0 <= i < r ==> !OccursAt(s, sub, i)
  {
    FindFrom(s, sub, 0)
  }

  // ---------------------------------------------------------------------
  // str.split(sep) for a one-character separator

  /** Python's `s.split(sep)`: every occurrence of `sep` separates two
      (possibly empty) parts, so there is always at least one part. */
  function Split(s: string, sep: char): (parts: seq<string>)
    ensures |parts| >= 1
    ensures |parts| == 1 <==> sep !in s
    ensures forall i :: 0 <= i < |parts| ==> sep !in parts[i]
    decreases |s|
  {
    if |s| == 0 then [""]
    else
      var rest := Split(s[1..], sep);
      assert s == [s[0]] + s[1..];
      if s[0] == sep then [""] + rest
      else [[s[0]] + rest[0]] + rest[1..]
  }

  /** The first part of a split is the text before the first separator. */
  lemma {:induction false} SplitHead(s: string, sep: char)
    ensures var h := Split(s, sep)[0];
      |h| <= |s| && h == s[..|h|] && (|h| == |s| || s[|h|] == sep)
    decreases |s|
  {
    if |s| > 0 && s[0] != sep {
      SplitHead(s[1..], sep);
    }
  }

  /** `sep.join(parts)`, the inverse of Split. */
  function Join(parts: seq<string>, sep: char): string
    requires |parts| >= 1
  {
    if |parts| == 1 then parts[0] else parts[0] + [sep] + Join(parts[1..], sep)
  }

  lemma {:induction false} SplitJoin(s: string, sep: char)
    ensures Join(Split(s, sep), sep) == s
    decreases |s|
  {
    if |s| > 0 {
      var rest := Split(s[1..], sep);
      SplitJoin(s[1..], sep);
      if s[0] == sep {
        JoinAfterEmpty(rest, sep);
      } else {
        JoinExtendedHead(s[0], rest, sep);
      }
      assert s == [s[0]] + s[1..];
    }
  }

  /** The first two parts of a join and what follows them. */
  lemma JoinFirstTwo(parts: seq<string>, sep: char)
    requires |parts| >= 2
    ensures Join(parts, sep) == parts[0] + [sep] + parts[1]
      + (if |parts| == 2 then [] else [sep] + Join(parts[2..], sep))
  {
    assert parts[1..][1..] == parts[2..];
  }

  lemma JoinAfterEmpty(parts: seq<string>, sep: char)
    requires |parts| >= 1
    ensures Join([""] + parts, sep) == [sep] + Join(parts, sep)
  {
    assert ([""] + parts)[1..] == parts;
  }

  lemma JoinExtendedHead(c: char, parts: seq<string>, sep: char)
    requires |parts| >= 1
    ensures Join([[c] + parts[0]] + parts[1..], sep) == [c] + Join(parts, sep)
  {
    var extended := [[c] + parts[0]] + parts[1..];
    if |parts| > 1 {
      assert extended[1..] == parts[1..];
    }
  }

  // ---------------------------------------------------------------------
  // str.split() with no argument

  /** Python's str.isspace for one character. */
  predicate IsSpace(c: char) {
    var n := c as int;
    (9 <= n <= 13) || (28 <= n <= 32) || n == 0x85 || n == 0xA0 || n == 0x1680
    || (0x2000 <= n <= 0x200A) || n == 0x2028 || n == 0x2029 || n == 0x202F
    || n == 0x205F || n == 0x3000
  }

  predicate NoSpace(w: string) {
    forall j :: 0 <= j < |w| ==> !IsSpace(w[j])
  }

  /** Length of the run of non-space characters that `s` starts with. */
  function WordLength(s: string): (n: nat)
    ensures n <= |s| && NoSpace(s[..n])
    ensures n == |s| || IsSpace(s[n])
  {
    if |s| == 0 || IsSpace(s[0]) then 0 else 1 + WordLength(s[1..])
  }

  /** Python's `s.split()`: the maximal runs of non-space characters. */
  function Fields(s: string): (words: seq<string>)
    ensures forall i :: 0 <= i < |words| ==> |words[i]| > 0 && NoSpace(words[i])
    decreases |s|
  {
    if |s| == 0 then []
    else if IsSpace(s[0]) then Fields(s[1..])
    else
      var n := WordLength(s);
      [s[..n]] + Fields(s[n..])
  }

  /** `' '.join(words)`. */
  function JoinSpaced(words: seq<string>): string {
    if |words| == 0 then "" else if |words| == 1 then words[0]
    else words[0] + " " + JoinSpaced(words[1..])
  }

  lemma {:induction false} WordLengthOfWord(w: string, t: string)
    requires NoSpace(w)
    requires |t| == 0 || IsSpace(t[0])
    ensures WordLength(w + t) == |w|
    decreases |w|
  {
    if |w| > 0 {
      assert (w + t)[1..] == w[1..] + t;
      WordLengthOfWord(w[1..], t);
    } else {
      assert w + t == t;
    }
  }

  predicate AllSpace(g: string) {
    forall j :: 0 <= j < |g| ==> IsSpace(g[j])
  }

  /** Whitespace in front of the text is skipped, however long the run. */
  lemma {:induction false} FieldsSkipSpace(g: string, s: string)
    requires AllSpace(g)
    ensures Fields(g + s) == Fields(s)
    decreases |g|
  {
    if |g| > 0 {
      assert (g + s)[1..] == g[1..] + s;
      FieldsSkipSpace(g[1..], s);
    } else {
      assert g + s == s;
    }
  }

  /** A word followed by a run of whitespace of any length and kind (such
      as the " \n" that ends the output of `hostname -I`) is one field, and
      the fields of the text after the run follow it. */
  lemma {:induction false} FieldsWordThenSpace(w: string, g: string, s: string)
    requires |w| > 0 && NoSpace(w)
    requires |g| > 0 && AllSpace(g)
    ensures Fields(w + g + s) == [w] + Fields(s)
  {
    var t := w + g + s;
    assert t == w + (g + s);
    WordLengthOfWord(w, g + s);
    assert t[..|w|] == w && t[|w|..] == g + s;
    FieldsSkipSpace(g, s);
  }

  /** Splitting a space-joined list of words gives the words back. */
  lemma {:induction false} FieldsJoinSpaced(words: seq<string>)
    requires forall i :: 0 <= i < |words| ==> |words[i]| > 0 && NoSpace(words[i])
    ensures Fields(JoinSpaced(words)) == words
    decreases |words|
  {
    if |words| == 1 {
      var w := words[0];
      WordLengthOfWord(w, "");
      assert w + "" == w;
      assert w[..|w|] == w && w[|w|..] == "";
    } else if |words| > 1 {
      var w, rest := words[0], JoinSpaced(words[1..]);
      var s := w + " " + rest;
      assert s == w + (" " + rest);
      WordLengthOfWord(w, " " + rest);
      assert s[..|w|] == w;
      assert s[|w|..] == " " + rest;
      assert (" " + rest)[1..] == rest;
      FieldsJoinSpaced(words[1..]);
      assert Fields(s) == [w] + Fields(" " + rest);
    }
  }

  // ---------------------------------------------------------------------
  // str.replace

  /** Python's `s.replace(pat, rep)` for a non-empty pattern: one scan from
      left to right replacing non-overlapping occurrences. */
  function ReplaceAll(s: string, pat: string, rep: string): string
    requires |pat| > 0
    decreases |s|
  {
    if |s| < |pat| then s
    else if s[..|pat|] == pat then rep + ReplaceAll(s[|pat|..], pat, rep)
    else [s[0]] + ReplaceAll(s[1..], pat, rep)
  }

  /** A string in which the pattern never occurs is left as it is. */
  lemma {:induction false} ReplaceAbsent(s: string, pat: string, rep: string)
    requires |pat| > 0
    requires forall i :: !OccursAt(s, pat, i)
    ensures ReplaceAll(s, pat, rep) == s
    decreases |s|
  {
    if |s| >= |pat| {
      assert !OccursAt(s, pat, 0);
      forall i ensures !OccursAt(s[1..], pat, i) {
        if 0 <= i && i + |pat| <= |s| - 1 {
          assert s[1..][i..i + |pat|] == s[i + 1..i + 1 + |pat|];
          assert !OccursAt(s, pat, i + 1);
        }
      }
      ReplaceAbsent(s[1..], pat, rep);
      assert s == [s[0]] + s[1..];
    }
  }

  /** No occurrence of `pat` in `a + b` starts in `a` and ends in `b`. */
  predicate NoStraddle(a: string, b: string, pat: string) {
    forall i :: 0 <= i < |a| < i + |pat| ==> !OccursAt(a + b, pat, i)
  }

  lemma {:induction false} NoStraddleDrop(a: string, b: string, pat: string, k: nat)
    requires k <= |a| && NoStraddle(a, b, pat)
    ensures NoStraddle(a[k..], b, pat)
  {
    var s, a' := a + b, a[k..];
    assert s[k..] == a' + b;
    forall i | 0 <= i < |a'| < i + |pat|
      ensures !OccursAt(a' + b, pat, i)
    {
      assert !OccursAt(s, pat, i + k);
      assert (a' + b)[i..] == s[i + k..];
    }
  }

  /** Replacing in a concatenation replaces in each half, provided no
      occurrence of the pattern straddles the seam. */
  lemma {:induction false} ReplaceConcat(a: string, b: string, pat: string, rep: string)
    requires |pat| > 0 && NoStraddle(a, b, pat)
    ensures ReplaceAll(a + b, pat, rep) == ReplaceAll(a, pat, rep) + ReplaceAll(b, pat, rep)
    decreases |a|
  {
    if |a| == 0 {
      assert a + b == b;
    } else if |a + b| < |pat| {
      assert ReplaceAll(b, pat, rep) == b;
    } else if |a| >= |pat| && a[..|pat|] == pat {
      NoStraddleDrop(a, b, pat, |pat|);
      ReplaceConcat(a[|pat|..], b, pat, rep);
      ReplaceConcatMatch(a, b, pat, rep);
    } else {
      assert !OccursAt(a + b, pat, 0);
      assert (a + b)[..|pat|] != pat by {
        assert (a + b)[0..|pat|] == (a + b)[..|pat|];
      }
      if |a| >= |pat| {
        assert a[..|pat|] == (a + b)[..|pat|];
      }
      NoStraddleDrop(a, b, pat, 1);
      ReplaceConcat(a[1..], b, pat, rep);
      ReplaceConcatSkip(a, b, pat, rep);
    }
  }

  lemma {:induction false} ReplaceConcatMatch(a: string, b: string, pat: string, rep: string)
    requires |pat| > 0 && |a| >= |pat| && a[..|pat|] == pat
    requires ReplaceAll(a[|pat|..] + b, pat, rep) == ReplaceAll(a[|pat|..], pat, rep) + ReplaceAll(b, pat, rep)
    ensures ReplaceAll(a + b, pat, rep) == ReplaceAll(a, pat, rep) + ReplaceAll(b, pat, rep)
  {
    var s := a + b;
    assert s[..|pat|] == pat && s[|pat|..] == a[|pat|..] + b;
  }

  lemma {:induction false} ReplaceConcatSkip(a: string, b: string, pat: string, rep: string)
    requires |pat| > 0 && |a| > 0
    requires |a + b| >= |pat| ==> (a + b)[..|pat|] != pat
    requires |a| >= |pat| ==> a[..|pat|] != pat
    requires ReplaceAll(a[1..] + b, pat, rep) == ReplaceAll(a[1..], pat, rep) + ReplaceAll(b, pat, rep)
    ensures ReplaceAll(a + b, pat, rep) == ReplaceAll(a, pat, rep) + ReplaceAll(b, pat, rep)
  {
    ConsConcat(a, b);
    ReplaceKeepsFirst(a + b, a[0], a[1..] + b, pat, rep);
    ReplaceKeepsFirst(a, a[0], a[1..], pat, rep);
  }

  lemma ConsConcat(a: string, b: string)
    requires |a| > 0
    ensures a + b == [a[0]] + (a[1..] + b) && a == [a[0]] + a[1..]
  {
  }

  /** A string that does not start with the pattern keeps its first
      character. */
  lemma {:induction false} ReplaceKeepsFirst(s: string, c: char, rest: string, pat: string, rep: string)
    requires |pat| > 0 && s == [c] + rest
    requires |s| >= |pat| ==> s[..|pat|] != pat
    ensures ReplaceAll(s, pat, rep) == [c] + ReplaceAll(rest, pat, rep)
  {
    assert s[1..] == rest;
    if |s| < |pat| {
      assert ReplaceAll(rest, pat, rep) == rest;
    }
  }

  /** An occurrence at the front is replaced and the scan continues after it. */
  lemma ReplaceAtFront(pat: string, s: string, rep: string)
    requires |pat| > 0
    ensures ReplaceAll(pat + s, pat, rep) == rep + ReplaceAll(s, pat, rep)
  {
    assert (pat + s)[..|pat|] == pat;
    assert (pat + s)[|pat|..] == s;
  }

  // ---------------------------------------------------------------------
  // String ordering and list.sort

  /** Python's `a <= b` on strings: lexicographic by code point. */
  predicate StrLe(a: string, b: string)
    decreases |a|
  {
    |a| == 0 || (|b| > 0 && (a[0] < b[0] || (a[0] == b[0] && StrLe(a[1..], b[1..]))))
  }

  lemma {:induction false} StrLeTransitive(a: string, b: string, c: string)
    requires StrLe(a, b) && StrLe(b, c)
    ensures StrLe(a, c)
    decreases |a|
  {
    if |a| > 0 && a[0] == b[0] && b[0] == c[0] {
      StrLeTransitive(a[1..], b[1..], c[1..]);
    }
  }

  lemma {:induction false} StrLeTotal(a: string, b: string)
    ensures StrLe(a, b) || StrLe(b, a)
    decreases |a|
  {
    if |a| > 0 && |b| > 0 && a[0] == b[0] {
      StrLeTotal(a[1..], b[1..]);
    }
  }

  lemma {:induction false} StrLeAntisymmetric(a: string, b: string)
    requires StrLe(a, b) && StrLe(b, a)
    ensures a == b
    decreases |a|
  {
    if |a| > 0 {
      StrLeAntisymmetric(a[1..], b[1..]);
      assert a == [a[0]] + a[1..] && b == [b[0]] + b[1..];
    }
  }

  ghost predicate Sorted(s: seq<string>) {
    forall i, j :: 0 <= i < j < |s| ==> StrLe(s[i], s[j])
  }

  lemma InsertKeepsSorted(r: seq<string>, j: nat, x: string)
    requires Sorted(r) && j <= |r|
    requires forall k :: 0 <= k < j ==> StrLe(r[k], x)
    requires forall k :: j <= k < |r| ==> StrLe(x, r[k])
    ensures Sorted(r[..j] + [x] + r[j..])
  {
    var t := r[..j] + [x] + r[j..];
    forall a, b | 0 <= a < b < |t| ensures StrLe(t[a], t[b]) {
      if b < j || a > j {
      } else if a == j || b == j {
      } else {
        assert t[a] == r[a] && t[b] == r[b - 1];
      }
    }
  }

  /** Python's `lst.sort()` on a list of strings: the result is ordered and
      holds the same strings, duplicates included. */
  method SortStrings(s: seq<string>) returns (r: seq<string>)
    ensures Sorted(r) && multiset(r) == multiset(s)
  {
    r := [];
    var i := 0;
    while i < |s|
      invariant i <= |s|
      invariant Sorted(r) && multiset(r) == multiset(s[..i])
    {
      var x := s[i];
      var j := 0;
      while j < |r| && StrLe(r[j], x)
        invariant j <= |r|
        invariant forall k :: 0 <= k < j ==> StrLe(r[k], x)
      {
        j := j + 1;
      }
      if j < |r| {
        StrLeTotal(r[j], x);
        forall k | j <= k < |r| ensures StrLe(x, r[k]) {
          if k > j {
            StrLeTransitive(x, r[j], r[k]);
          }
        }
      }
      InsertKeepsSorted(r, j, x);
      assert r == r[..j] + r[j..];
      r := r[..j] + [x] + r[j..];
      assert s[..i + 1] == s[..i] + [x];
      i := i + 1;
    }
    assert s[..i] == s;
  }

  // ---------------------------------------------------------------------
  // str(int) and its inverse

  /** `s.partition(c)` when `c` occurs: the text before and after its first
      occurrence; None when it does not. */
  function Partition(s: string, c: char): (r: Option<(string, string)>)
    ensures r.None? <==> c !in s
    ensures r.Some? ==> s == r.value.0 + [c] + r.value.1 && c !in r.value.0
  {
    if |s| == 0 then None
    else if s[0] == c then Some(("", s[1..]))
    else match Partition(s[1..], c)
      case None => None
      case Some(parts) => Some(([s[0]] + parts.0, parts.1))
  }

  lemma {:induction false} PartitionOf(a: string, c: char, b: string)
    requires c !in a
    ensures Partition(a + [c] + b, c) == Some((a, b))
    decreases |a|
  {
    if |a| > 0 {
      PartitionOf(a[1..], c, b);
      assert (a + [c] + b)[1..] == a[1..] + [c] + b;
      assert a == [a[0]] + a[1..];
    } else {
      assert a + [c] + b == [c] + b;
    }
  }

  predicate IsDigit(c: char) {
    '0' <= c <= '9'
  }

  predicate AllDigits(s: string) {
    forall i :: 0 <= i < |s| ==> IsDigit(s[i])
  }

  function DigitChar(d: nat): char
    requires d < 10
  {
    ('0' as int + d) as char
  }

  /** Decimal digits of a natural number, most significant first. */
  function NatString(n: nat): (s: string)
    ensures |s| > 0 && AllDigits(s)
    ensures s[0] == '0' <==> n == 0
    ensures n == 0 ==> s == "0"
  {
    if n < 10 then [DigitChar(n)] else NatString(n / 10) + [DigitChar(n % 10)]
  }

  /** Python's `str(n)` for an int. */
  function IntString(n: int): (s: string)
    ensures |s| > 0 && (s[0] == '-' <==> n < 0)
    ensures forall c :: c in s ==> IsDigit(c) || c == '-'
    ensures n >= 0 ==> AllDigits(s)
    ensures s[0] == '0' ==> s == "0"
    ensures n < 0 ==> |s| > 1 && AllDigits(s[1..]) && s[1] != '0'
  {
    if n < 0 then "-" + NatString(-n) else NatString(n)
  }

  function DigitsValue(s: string): nat
    requires AllDigits(s)
  {
    if |s| == 0 then 0 else 10 * DigitsValue(s[..|s| - 1]) + (s[|s| - 1] as int - '0' as int)
  }

  /** Reads back a decimal integer written by IntString. */
  function ParseDecimal(s: string): Option<int> {
    if |s| > 1 && s[0] == '-' && AllDigits(s[1..]) then Some(0 - DigitsValue(s[1..]) as int)
    else if |s| > 0 && AllDigits(s) then Some(DigitsValue(s))
    else None
  }

  lemma {:induction false} NatStringValue(n: nat)
    ensures DigitsValue(NatString(n)) == n
  {
    if n >= 10 {
      var s := NatString(n);
      NatStringValue(n / 10);
      assert s[..|s| - 1] == NatString(n / 10);
    }
  }

  lemma IntStringRoundTrip(n: int)
    ensures ParseDecimal(IntString(n)) == Some(n)
  {
    if n < 0 {
      NatStringValue(-n);
      assert IntString(n)[1..] == NatString(-n);
    } else {
      NatStringValue(n);
    }
  }
}

=== FILE: usbc.dfy ===
/** The local camera code of USBC.py: the device listing, the V4L2
    enumeration of formats, frame sizes and frame intervals, and the capture
    object `CameraProcessor`. The devices are inputs: whether OpenCV opens a
    path, what `VIDIOC_QUERYCAP` reports, and the answer of each
    enumeration ioctl to each index. */
module USBC {
  import opened Wrappers
  import opened PyStr
  import opened FrameQueues

  // ---------------------------------------------------------------------
  // get_camera_list

  /** `{'camera name': ..., 'path': ...}` */
  datatype CameraEntry = CameraEntry(cameraName: string, path: string)

  /** Opening a device file or `VIDIOC_QUERYCAP` failed; the exception
      leaves `get_camera_list`. */
  datatype OSError = OSError

  /** The paths OpenCV can open, in the order given. */
  function Openable(paths: seq<string>, isOpened: string -> bool): (r: seq<string>)
    ensures |r| <= |paths|
    ensures forall p :: p in r <==> p in paths && isOpened(p)
  {
    if |paths| == 0 then []
    else
      var last := paths[|paths| - 1];
      Openable(paths[..|paths| - 1], isOpened) + (if isOpened(last) then [last] else [])
  }

  /** The filter keeps the order of the paths: filtering two runs of
      paths one after the other is filtering their concatenation. */
  lemma {:induction false} OpenableConcat(a: seq<string>, b: seq<string>, isOpened: string -> bool)
    ensures Openable(a + b, isOpened) == Openable(a, isOpened) + Openable(b, isOpened)
    decreases |b|
  {
    if |b| == 0 {
      assert a + b == a;
    } else {
      var init := b[..|b| - 1];
      SnocConcat(a, b);
      OpenableConcat(a, init, isOpened);
    }
  }

  lemma SnocConcat<T>(a: seq<T>, b: seq<T>)
    requires |b| > 0
    ensures (a + b)[..|a + b| - 1] == a + b[..|b| - 1] && (a + b)[|a + b| - 1] == b[|b| - 1]
  {
  }

  /** What `get_camera_list` returns for the glob result `paths`: the loop
      skips unopenable paths and raises on the first openable one whose
      capability query fails. */
  function ListCameras(paths: seq<string>, isOpened: string -> bool, queryCap: string -> Option<string>)
    : Result<seq<CameraEntry>, OSError>
  {
    if |paths| == 0 then Success([])
    else
      var last := paths[|paths| - 1];
      match ListCameras(paths[..|paths| - 1], isOpened, queryCap)
      case Failure(e) => Failure(e)
      case Success(list) =>
        if !isOpened(last) then Success(list)
        else match queryCap(last)
          case None => Failure(OSError)
          case Some(name) => Success(list + [CameraEntry(name, last)])
  }

  /** The listing fails exactly when some openable path cannot be queried;
      otherwise it holds one entry per openable path, in glob order, named
      by the card the device reports. */
  lemma {:induction false} ListCamerasIsOpenable(paths: seq<string>, isOpened: string -> bool,
                                                 queryCap: string -> Option<string>)
    ensures var r, open := ListCameras(paths, isOpened, queryCap), Openable(paths, isOpened);
      (r.Failure? <==> exists p :: p in open && queryCap(p).None?)
      && (r.Success? ==>
            |r.value| == |open|
            && forall i :: 0 <= i < |open| ==> r.value[i] == CameraEntry(queryCap(open[i]).value, open[i]))
    decreases |paths|
  {
    if |paths| > 0 {
      var init, last := paths[..|paths| - 1], paths[|paths| - 1];
      ListCamerasIsOpenable(init, isOpened, queryCap);
      var open := Openable(paths, isOpened);
      var openInit := Openable(init, isOpened);
      assert open == openInit + (if isOpened(last) then [last] else []);
      if isOpened(last) && queryCap(last).None? {
        assert last in open;
      }
    }
  }

  /** `USBCamera.get_camera_list` (USBC.py:15-37); also returns `index`,
      the camera number it announces, which counts the listed devices. */
  method GetCameraList(videoDevices: seq<string>, isOpened: string -> bool, queryCap: string -> Option<string>)
    returns (r: Result<seq<CameraEntry>, OSError>, index: nat)
    ensures r == ListCameras(videoDevices, isOpened, queryCap)
    ensures r.Success? ==> index == |r.value|
  {
    var cameraList := [];
    index := 0;
    for k := 0 to |videoDevices|
      invariant ListCameras(videoDevices[..k], isOpened, queryCap) == Success(cameraList)
      invariant index == |cameraList|
    {
      var videoDevice := videoDevices[k];
      assert videoDevices[..k + 1][..k] == videoDevices[..k];
      if !isOpened(videoDevice) {
        continue;
      }
      var cap := queryCap(videoDevice);
      if cap.None? {
        ListFailureStays(videoDevices, isOpened, queryCap, k + 1);
        return Failure(OSError), index;
      }
      index := index + 1;
      cameraList := cameraList + [CameraEntry(cap.value, videoDevice)];
    }
    assert videoDevices[..|videoDevices|] == videoDevices;
    r := Success(cameraList);
  }

  /** Once the loop has raised, the later paths change nothing. */
  lemma {:induction false} ListFailureStays(paths: seq<string>, isOpened: string -> bool,
                                            queryCap: string -> Option<string>, k: nat)
    requires k <= |paths| && ListCameras(paths[..k], isOpened, queryCap).Failure?
    ensures ListCameras(paths, isOpened, queryCap) == ListCameras(paths[..k], isOpened, queryCap)
    decreases |paths| - k
  {
    if k < |paths| {
      assert paths[..k + 1][..k] == paths[..k];
      ListFailureStays(paths, isOpened, queryCap, k + 1);
    } else {
      assert paths[..k] == paths;
    }
  }

  // ---------------------------------------------------------------------
  // Enumeration by index

  /** The answer of an enumeration ioctl to each index: `Some` where it
      fills the structure, `None` where it raises OSError. Every index past
      the table raises. */
  function Query<T>(table: seq<Option<T>>, index: nat): Option<T> {
    if index < |table| then table[index] else None
  }

  /** What a loop that queries `start`, `start + 1`, ... and stops at the
      first OSError collects. */
  function EnumFrom<T>(table: seq<Option<T>>, start: nat): seq<T>
    decreases |table| - start
  {
    if start < |table| && table[start].Some? then [table[start].value] + EnumFrom(table, start + 1)
    else []
  }

  /** Every reported item is the answer to its index, and the index after
      the last one fails. */
  lemma {:induction false} EnumFromQueries<T>(table: seq<Option<T>>, start: nat)
    ensures var r := EnumFrom(table, start);
      (forall j :: 0 <= j < |r| ==> Query(table, start + j) == Some(r[j]))
      && Query(table, start + |r|).None?
    decreases |table| - start
  {
    if start < |table| && table[start].Some? {
      EnumFromQueries(table, start + 1);
      var r := EnumFrom(table, start);
      forall j | 0 <= j < |r|
        ensures Query(table, start + j) == Some(r[j])
      {
        if j > 0 {
          assert r[j] == EnumFrom(table, start + 1)[j - 1];
          assert start + j == (start + 1) + (j - 1);
        }
      }
    }
  }

  /** Conversely, the run of successful answers up to the first failure is
      the only sequence with those two properties. */
  lemma {:induction false} EnumFromUnique<T>(table: seq<Option<T>>, start: nat, r: seq<T>)
    requires forall j :: 0 <= j < |r| ==> Query(table, start + j) == Some(r[j])
    requires Query(table, start + |r|).None?
    ensures r == EnumFrom(table, start)
    decreases |r|
  {
    if |r| > 0 {
      assert Query(table, start) == Some(r[0]);
      forall j | 0 <= j < |r[1..]|
        ensures Query(table, (start + 1) + j) == Some(r[1..][j])
      {
        assert Query(table, start + (j + 1)) == Some(r[j + 1]);
      }
      EnumFromUnique(table, start + 1, r[1..]);
      assert r == [r[0]] + r[1..];
    }
  }

  // ---------------------------------------------------------------------
  // get_camera_info

  /** `v4l2_fmtdesc` as filled by `VIDIOC_ENUM_FMT`. */
  datatype FmtDesc = FmtDesc(description: string, pixelFormat: nat)

  /** `v4l2_frmsizeenum` as filled by `VIDIOC_ENUM_FRAMESIZES`; `width`
      and `height` are what its `discrete` member reads, whatever the type. */
  datatype FrmSize = FrmSize(discrete: bool, width: nat, height: nat)

  /** `v4l2_frmivalenum` as filled by `VIDIOC_ENUM_FRAMEINTERVALS`. */
  datatype FrmIval = FrmIval(discrete: bool, numerator: nat, denominator: nat)

  /** A capture device: its card name and the answers of the three
      enumeration ioctls, frame sizes per pixel format and frame intervals
      per (pixel format, width, height). */
  datatype Device = Device(
    card: string,
    formats: seq<Option<FmtDesc>>,
    frameSizes: nat -> seq<Option<FrmSize>>,
    frameIntervals: (nat, nat, nat) -> seq<Option<FrmIval>>)

  /** What `get_camera_info` prints, in order: the device name, the
      formats of the first pass, and for each format of the second pass its
      frame sizes. A frame size shows its width and height only when it is
      discrete; its rates are the (numerator, denominator) of its discrete
      intervals. */
  datatype SizeReport = SizeReport(shown: Option<(nat, nat)>, rates: seq<(nat, nat)>)
  datatype FormatReport = FormatReport(description: string, sizes: seq<SizeReport>)
  datatype CameraInfo = CameraInfo(deviceName: string, encodings: seq<string>, resolutions: seq<FormatReport>)

  /** The printed rates of a run of intervals: one per discrete interval. */
  function Rates(ivals: seq<FrmIval>): (r: seq<(nat, nat)>)
    ensures |r| <= |ivals|
    ensures forall x :: x in r <==> exists iv :: iv in ivals && iv.discrete && x == (iv.numerator, iv.denominator)
  {
    if |ivals| == 0 then []
    else
      var last := ivals[|ivals| - 1];
      var init := Rates(ivals[..|ivals| - 1]);
      assert forall iv :: iv in ivals <==> iv in ivals[..|ivals| - 1] || iv == last;
      init + (if last.discrete then [(last.numerator, last.denominator)] else [])
  }

  /** The rates keep the order of the intervals. */
  lemma {:induction false} RatesConcat(a: seq<FrmIval>, b: seq<FrmIval>)
    ensures Rates(a + b) == Rates(a) + Rates(b)
    decreases |b|
  {
    if |b| == 0 {
      assert a + b == a;
    } else {
      var init := b[..|b| - 1];
      SnocConcat(a, b);
      RatesConcat(a, init);
    }
  }

  /** One frame size: shown only if discrete; its intervals are enumerated
      either way, for the width and height its `discrete` member reads. */
  function SizeReportOf(dev: Device, pixelFormat: nat, size: FrmSize): (r: SizeReport)
    ensures r.shown.Some? <==> size.discrete
    ensures r.shown.Some? ==> r.shown.value == (size.width, size.height)
    ensures var ivals := EnumFrom(dev.frameIntervals(pixelFormat, size.width, size.height), 0);
      forall x :: x in r.rates <==> exists iv :: iv in ivals && iv.discrete && x == (iv.numerator, iv.denominator)
  {
    SizeReport(if size.discrete then Some((size.width, size.height)) else None,
               Rates(EnumFrom(dev.frameIntervals(pixelFormat, size.width, size.height), 0)))
  }

  /** The frame sizes of one format, each with its intervals: one report per
      size index answered before the first failing one. */
  function SizesOf(dev: Device, pixelFormat: nat): (r: seq<SizeReport>)
    ensures forall j :: 0 <= j < |r| ==>
      Query(dev.frameSizes(pixelFormat), j).Some? && r[j] == SizeReportOf(dev, pixelFormat, Query(dev.frameSizes(pixelFormat), j).value)
    ensures Query(dev.frameSizes(pixelFormat), |r|).None?
  {
    var sizes := EnumFrom(dev.frameSizes(pixelFormat), 0);
    EnumFromQueries(dev.frameSizes(pixelFormat), 0);
    var r := seq(|sizes|, i requires 0 <= i < |sizes| => SizeReportOf(dev, pixelFormat, sizes[i]));
    assert forall j :: 0 <= j < |r| ==> Query(dev.frameSizes(pixelFormat), j) == Some(sizes[j]) by {
      forall j | 0 <= j < |r|
        ensures Query(dev.frameSizes(pixelFormat), j) == Some(sizes[j])
      {
        assert 0 + j == j;
      }
    }
    r
  }

  /** One block of the second pass: the format's name and its sizes. */
  function FormatReportOf(dev: Device, fmt: FmtDesc): (r: FormatReport)
    ensures r.description == fmt.description
    ensures Query(dev.frameSizes(fmt.pixelFormat), |r.sizes|).None?
  {
    FormatReport(fmt.description, SizesOf(dev, fmt.pixelFormat))
  }

  /** The second pass when `fmt.index` starts at `start`: one block per
      format index answered from `start` up to the first failing one. */
  function ResolutionsFrom(dev: Device, start: nat): (r: seq<FormatReport>)
    ensures forall k :: start <= k < start + |r| ==>
      Query(dev.formats, k).Some? && r[k - start] == FormatReportOf(dev, Query(dev.formats, k).value)
    ensures Query(dev.formats, start + |r|).None?
  {
    var fmts := EnumFrom(dev.formats, start);
    EnumFromQueries(dev.formats, start);
    var r := seq(|fmts|, i requires 0 <= i < |fmts| => FormatReportOf(dev, fmts[i]));
    assert forall k :: start <= k < start + |r| ==> Query(dev.formats, k) == Some(fmts[k - start]) by {
      forall k | start <= k < start + |r|
        ensures Query(dev.formats, k) == Some(fmts[k - start])
      {
        assert start + (k - start) == k;
      }
    }
    r
  }

  /** The first pass: the name of every format answered before the first
      failing index. */
  function EncodingsOf(dev: Device): (r: seq<string>)
    ensures forall j :: 0 <= j < |r| ==>
      Query(dev.formats, j).Some? && r[j] == Query(dev.formats, j).value.description
    ensures Query(dev.formats, |r|).None?
  {
    var fmts := EnumFrom(dev.formats, 0);
    EnumFromQueries(dev.formats, 0);
    var r := seq(|fmts|, i requires 0 <= i < |fmts| => fmts[i].description);
    assert forall j :: 0 <= j < |r| ==> Query(dev.formats, j) == Some(fmts[j]) by {
      forall j | 0 <= j < |r|
        ensures Query(dev.formats, j) == Some(fmts[j])
      {
        assert 0 + j == j;
      }
    }
    r
  }

  /** The report of both passes, each starting at format index 0. */
  function CameraInfoOf(dev: Device): CameraInfo {
    CameraInfo(dev.card, EncodingsOf(dev), ResolutionsFrom(dev, 0))
  }

  /** Because of the reset, both passes list the same formats in the same
      order: one resolution block per listed encoding, each encoding the
      answer to its index, and the index after the last one fails. */
  lemma PassesAgree(dev: Device)
    ensures var info := CameraInfoOf(dev);
      |info.encodings| == |info.resolutions|
      && (forall i :: 0 <= i < |info.encodings| ==>
            info.resolutions[i].description == info.encodings[i]
            && Query(dev.formats, i).Some? && Query(dev.formats, i).value.description == info.encodings[i])
      && Query(dev.formats, |info.encodings|).None?
  {
    var fmts := EnumFrom(dev.formats, 0);
    EnumFromQueries(dev.formats, 0);
    var encodings, resolutions := EncodingsOf(dev), ResolutionsFrom(dev, 0);
    forall i | 0 <= i < |encodings|
      ensures resolutions[i].description == encodings[i]
      ensures Query(dev.formats, i).Some? && Query(dev.formats, i).value.description == encodings[i]
    {
      assert encodings[i] == fmts[i].description;
      assert resolutions[i] == FormatReportOf(dev, fmts[i]);
      assert Query(dev.formats, 0 + i) == Some(fmts[i]);
    }
  }

  /** A second pass that resumed where the first one stopped would list
      nothing: the reset of `fmt.index` (USBC.py:62) is what makes it list
      the formats again. */
  lemma WithoutResetNothingIsListed(dev: Device)
    ensures ResolutionsFrom(dev, |EncodingsOf(dev)|) == []
    ensures |ResolutionsFrom(dev, 0)| == |EncodingsOf(dev)|
  {
    EnumFromQueries(dev.formats, 0);
  }

  /** A successful query adds its answer in front of the rest. */
  lemma EnumFromStep<T>(table: seq<Option<T>>, index: nat)
    requires Query(table, index).Some?
    ensures EnumFrom(table, index) == [Query(table, index).value] + EnumFrom(table, index + 1)
  {
  }

  /** The frame interval loop (USBC.py:76-90): indices from 0 until the
      ioctl raises, keeping the discrete intervals. */
  method EnumerateIntervals(dev: Device, pixelFormat: nat, width: nat, height: nat) returns (rates: seq<(nat, nat)>)
    ensures rates == Rates(EnumFrom(dev.frameIntervals(pixelFormat, width, height), 0))
  {
    var table := dev.frameIntervals(pixelFormat, width, height);
    ghost var items: seq<FrmIval> := [];
    rates := [];
    var index := 0;
    while true
      invariant EnumFrom(table, 0) == items + EnumFrom(table, index)
      invariant rates == Rates(items)
      decreases |table| - index
    {
      var frmivalenum := Query(table, index);
      if frmivalenum.None? {
        break;
      }
      var ival := frmivalenum.value;
      if ival.discrete {
        rates := rates + [(ival.numerator, ival.denominator)];
      }
      assert (items + [ival])[..|items|] == items;
      items := items + [ival];
      index := index + 1;
    }
    assert items + [] == items;
  }

  /** The frame size loop of one format (USBC.py:68-93): indices from 0
      until the ioctl raises, each size followed by its interval loop. */
  method EnumerateSizes(dev: Device, pixelFormat: nat) returns (sizes: seq<SizeReport>)
    ensures sizes == SizesOf(dev, pixelFormat)
  {
    var table := dev.frameSizes(pixelFormat);
    ghost var items: seq<FrmSize> := [];
    sizes := [];
    var index := 0;
    while true
      invariant EnumFrom(table, 0) == items + EnumFrom(table, index)
      invariant |sizes| == |items| && forall i :: 0 <= i < |items| ==> sizes[i] == SizeReportOf(dev, pixelFormat, items[i])
      decreases |table| - index
    {
      var frmsize := Query(table, index);
      if frmsize.None? {
        break;
      }
      EnumFromStep(table, index);
      var size := frmsize.value;
      var shown := if size.discrete then Some((size.width, size.height)) else None;
      var rates := EnumerateIntervals(dev, pixelFormat, size.width, size.height);
      sizes := sizes + [SizeReport(shown, rates)];
      assert items + EnumFrom(table, index) == (items + [size]) + EnumFrom(table, index + 1);
      items := items + [size];
      index := index + 1;
    }
    assert items + [] == items;
  }

  /** The second format pass (USBC.py:62-96) from `fmt.index == start`. */
  method EnumerateResolutions(dev: Device, start: nat) returns (resolutions: seq<FormatReport>)
    ensures resolutions == ResolutionsFrom(dev, start)
  {
    ghost var items: seq<FmtDesc> := [];
    resolutions := [];
    var index := start;
    while true
      invariant EnumFrom(dev.formats, start) == items + EnumFrom(dev.formats, index)
      invariant |resolutions| == |items|
      invariant forall i :: 0 <= i < |items| ==> resolutions[i] == FormatReportOf(dev, items[i])
      decreases |dev.formats| - index
    {
      var fmt := Query(dev.formats, index);
      if fmt.None? {
        break;
      }
      EnumFromStep(dev.formats, index);
      var sizes := EnumerateSizes(dev, fmt.value.pixelFormat);
      resolutions := resolutions + [FormatReport(fmt.value.description, sizes)];
      assert items + EnumFrom(dev.formats, index) == (items + [fmt.value]) + EnumFrom(dev.formats, index + 1);
      items := items + [fmt.value];
      index := index + 1;
    }
    assert items + [] == items;
  }

  /** The first format pass (USBC.py:50-59); `index` is where `fmt.index`
      stops. */
  method EnumerateFormats(dev: Device) returns (encodings: seq<string>, index: nat)
    ensures encodings == EncodingsOf(dev)
    ensures index == |EnumFrom(dev.formats, 0)| && Query(dev.formats, index).None?
  {
    ghost var items: seq<FmtDesc> := [];
    encodings := [];
    index := 0;
    while true
      invariant EnumFrom(dev.formats, 0) == items + EnumFrom(dev.formats, index)
      invariant index == |items| && |encodings| == |items|
      invariant forall i :: 0 <= i < |items| ==> encodings[i] == items[i].description
      decreases |dev.formats| - index
    {
      var fmt := Query(dev.formats, index);
      if fmt.None? {
        break;
      }
      EnumFromStep(dev.formats, index);
      encodings := encodings + [fmt.value.description];
      assert items + EnumFrom(dev.formats, index) == (items + [fmt.value]) + EnumFrom(dev.formats, index + 1);
      items := items + [fmt.value];
      index := index + 1;
    }
    assert items + [] == items;
  }

  /** `USBCamera.get_camera_info` (USBC.py:39-96) for the device at the
      entry's path: the first pass, the reset of `fmt.index`, the second. */
  method GetCameraInfo(dev: Device) returns (info: CameraInfo)
    ensures info == CameraInfoOf(dev)
  {
    var encodings, fmtIndex := EnumerateFormats(dev);
    fmtIndex := 0;
    var resolutions := EnumerateResolutions(dev, fmtIndex);
    info := CameraInfo(dev.card, encodings, resolutions);
  }

  // ---------------------------------------------------------------------
  // CameraProcessor

  /** The `--set-fmt-video` argument. */
  function FmtVideoArgument(width: int, height: int, encode: string): string {
    "width=" + IntString(width) + "," + ("height=" + IntString(height) + "," + ("pixelformat=" + encode))
  }

  /** The value of a `key=value,` field at the front of `s`, and the text
      after its ','. */
  function ParseField(s: string, key: string): Option<(string, string)> {
    if |s| < |key| || s[..|key|] != key then None else Partition(s[|key|..], ',')
  }

  lemma ParseFieldOf(key: string, value: string, rest: string)
    requires ',' !in value
    ensures ParseField(key + value + "," + rest, key) == Some((value, rest))
  {
    ConcatParts(key, value + [','] + rest);
    assert key + value + "," + rest == key + (value + [','] + rest);
    PartitionOf(value, ',', rest);
  }

  lemma ConcatParts(a: string, b: string)
    ensures (a + b)[..|a|] == a && (a + b)[|a|..] == b
  {
  }

  /** Reads the argument back: the numbers end at the first ',' after
      their key; the pixel format is the rest. */
  function ParseFmtVideoArgument(s: string): Option<(int, int, string)> {
    match ParseField(s, "width=")
    case None => None
    case Some(w) =>
      match ParseField(w.1, "height=")
      case None => None
      case Some(h) =>
        if |h.1| < 12 || h.1[..12] != "pixelformat=" then None
        else match (ParseDecimal(w.0), ParseDecimal(h.0))
          case (Some(width), Some(height)) => Some((width, height, h.1[12..]))
          case _ => None
  }

  /** The argument names the width, height and pixel format it was built
      from, whatever characters the pixel format holds. */
  lemma FmtVideoRoundTrip(width: int, height: int, encode: string)
    ensures ParseFmtVideoArgument(FmtVideoArgument(width, height, encode)) == Some((width, height, encode))
  {
    var ws, hs := IntString(width), IntString(height);
    var afterHeight := "pixelformat=" + encode;
    var afterWidth := "height=" + hs + "," + afterHeight;
    ParseFieldOf("width=", ws, afterWidth);
    ParseFieldOf("height=", hs, afterHeight);
    ConcatParts("pixelformat=", encode);
    IntStringRoundTrip(width);
    IntStringRoundTrip(height);
  }

  /** `USBCamera.CameraProcessor`. */
  class CameraProcessor {
    var path: string
    var encode: string
    var fps: int
    var width: int
    var height: int
    var frameQueue: FrameQueue<Frame>

    ghost predicate Valid()
      reads this, frameQueue
    {
      frameQueue.maxsize == 0 && frameQueue.Valid()
    }

    /** `__init__` (USBC.py:102-109), without the thread object. */
    constructor (path: string, encode: string := "MJPG", fps: int := 30, width: int := 1280, height: int := 960)
      ensures Valid() && fresh(frameQueue) && frameQueue.items == []
      ensures this.path == path && this.encode == encode && this.fps == fps
      ensures this.width == width && this.height == height
    {
      this.path, this.encode, this.fps := path, encode, fps;
      this.width, this.height := width, height;
      frameQueue := new FrameQueue<Frame>();
    }

    /** The `v4l2-ctl` command `capture_frames` runs (USBC.py:121-122). */
    function FormatCommand(): string
      reads this
    {
      "v4l2-ctl -d " + path + " --set-fmt-video=" + FmtVideoArgument(width, height, encode)
    }

    /** The command selects the device by its path and names the stored
        width, height and pixel format. */
    lemma FormatCommandNamesSettings()
      ensures var command, prefix := FormatCommand(), "v4l2-ctl -d " + path + " --set-fmt-video=";
        |command| >= |prefix| && command[..|prefix|] == prefix
        && ParseFmtVideoArgument(command[|prefix|..]) == Some((width, height, encode))
    {
      var prefix := "v4l2-ctl -d " + path + " --set-fmt-video=";
      var argument := FmtVideoArgument(width, height, encode);
      assert FormatCommand() == prefix + argument;
      assert (prefix + argument)[..|prefix|] == prefix && (prefix + argument)[|prefix|..] == argument;
      FmtVideoRoundTrip(width, height, encode);
    }

    /** `capture_frames` (USBC.py:119-141) up to the frames read so far:
        the format command, then each frame published. The queue is
        unbounded, so the `queue.Full` branch never runs and every frame is
        appended in the order read. */
    method CaptureFrames(frames: seq<Frame>) returns (command: string)
      requires Valid()
      modifies frameQueue
      ensures Valid()
      ensures command == FormatCommand()
      ensures frameQueue.items == old(frameQueue.items) + frames
    {
      command := FormatCommand();
      for k := 0 to |frames|
        invariant frameQueue.Valid()
        invariant frameQueue.items == AfterPublishing(old(frameQueue.items), 0, frames[..k])
      {
        assert frames[..k + 1][..k] == frames[..k];
        var dropped := frameQueue.Publish(frames[k]);
      }
      assert frames[..|frames|] == frames;
      UnboundedPublishingAppends(old(frameQueue.items), frames);
    }
  }
}

=== FILE: wrappers.dfy ===
/** Option, Result and Outcome: the error paths of the camera code (a
    Python exception, a lookup that finds nothing) as values. */
module Wrappers {

  datatype Option<+T> = None | Some(value: T)

  datatype Result<+R, +E> = Success(value: R) | Failure(error: E)

  datatype Outcome<+E> = Pass | Fail(error: E)
}
